=== FILE: README.md ===
# jodd-http `HttpBase` in Dafny

A functional model of the message core that jodd-http's requests and responses
share: class `HttpBase`. Each piece of its state becomes a field of an
immutable `Message` record, and each mutator becomes a function from the old
message to the new one. The state is:

- the HTTP version;
- an insertion-ordered header store with case-insensitive names;
- the media type and charset, kept in step with the Content-Type header;
- the raw body;
- an optional form;
- the form encoding.

Errors are `Result` failures.

The model covers:

- **Header store.** `header(name)`, `header(name, value)`, `_header`,
  `header(name, int)` and `removeHeader`. Names are stored trimmed and
  lower-cased, and values trimmed. Field names are case-insensitive as
  section 3.2 of RFC 7230 requires. An update keeps a key's first position
  (`LinkedHashMap`), and a new key is appended (module `OrderedMap`, used for
  the form too).
- **Content-Type bookkeeping.** `contentType(mediaType, charset)`,
  `charset(c)`, `mediaType(t)`, `contentType(full)` and `contentLength(n)`.
- **Body and form.** `body(text)`, `bodyBytes()`, `body(bytes, contentType)`,
  `initForm`, the three `form(...)` setters and `isFormMultipart`.
- **`formString()`.** The empty case and the urlencoded query. The multipart
  case uses the framing of section 4 of RFC 7578, with delimiter lines as in
  section 5.1.1 of RFC 2046. The random boundary token is a parameter.
- **Parsing.** `readHeaders` splits each line at its first colon, up to a
  blank line. `readBody` has several cases:
  - Content-Length framing, as in section 3.3.3 of RFC 7230.
  - Chunked decoding, as in section 4.1 of RFC 7230. It runs after
    Content-Length and overrides it.
  - With neither header, HTTP/1.0 reads to end of stream; any other version
    clears the body.
  - The body is then dispatched on its media type.

Modules follow the program's layers:

| module | file | role |
|---|---|---|
| `Wrappers` | `wrappers.dfy` | `Option` and `Result` |
| `Text` | `text.dfy` | Java `trim`, ASCII lower-casing, `isBlank` and `indexOf` |
| `Numbers` | `numbers.dfy` | `String.valueOf(int)` and `Integer.parseInt(s, radix)` |
| `OrderedMap` | `ordered_map.dfy` | the insertion-ordered map, with `ToMap` as its reference meaning |
| `Reader` | `reader.dfy` | `BufferedReader.readLine` on a character sequence, and the bounded copy |
| `Latin1` | `latin1.dfy` | the ISO-8859-1 conversion between raw body text and bytes |
| `HttpMessage` | `message.dfy` | the message record and its setters |
| `FormPayload` | `form_payload.dfy` | `isFormMultipart` and `formString` |
| `Parser` | `parser.dfy` | `readHeaders` and `readBody` |

Some collaborators' code is not part of this model:

- `HttpUtil.extractMediaType`, `HttpUtil.extractContentTypeCharset`,
  `HttpUtil.buildQuery` and `HttpUtil.parseQuery`;
- the multipart stream parser.

They are the function-valued fields of the `HttpUtil` record that the
operations take as a parameter. The properties hold for every choice of those
functions, unless a lemma states an assumption about them.

## Model

All sources are in `jodd-http/src/main/java/jodd/http/HttpBase.java`.

| member | source | states |
|---|---|---|
| OrderedMap.Get | jodd-http/src/main/java/jodd/http/HttpBase.java:73 | A lookup finds nothing exactly when the key is absent. What it finds is the value stored with the key. |
| OrderedMap.Put | jodd-http/src/main/java/jodd/http/HttpBase.java:102 | After a put, the key maps to the new value and every other key keeps its value. A key already present keeps its position, so the key order is unchanged. A new key is appended at the end. |
| OrderedMap.PutIsMapUpdate | jodd-http/src/main/java/jodd/http/HttpBase.java:102 | Read as a map, a put on the ordered store is exactly the map update `m[k := v]`. |
| OrderedMap.Remove | jodd-http/src/main/java/jodd/http/HttpBase.java:82 | After a remove, the key is absent. Removing an absent key changes nothing. |
| OrderedMap.RemoveAtIndex | jodd-http/src/main/java/jodd/http/HttpBase.java:82 | In a store with unique keys, removing the key at position i deletes exactly that entry, and the others keep their order. |
| OrderedMap.RemoveIsMapRemoval | jodd-http/src/main/java/jodd/http/HttpBase.java:82 | Read as a map, a remove is exactly the map removal `m - {k}`. |
| OrderedMap.PutAll | jodd-http/src/main/java/jodd/http/HttpBase.java:289-306 | A run of puts keeps every old key, and the store grows by at most one entry per put. |
| OrderedMap.PutAllGet | jodd-http/src/main/java/jodd/http/HttpBase.java:289-294 | Putting a sequence of entries leaves each key with the value of its last entry, or with its old value if no entry names it. |
| OrderedMap.PutAllKeys | jodd-http/src/main/java/jodd/http/HttpBase.java:289-294 | After a run of puts, the old keys keep their order, and each new key follows them at the position of its first put, once. This is the iteration order of the `LinkedHashMap`. |
| Text.Trim | jodd-http/src/main/java/jodd/http/HttpBase.java:93-95 | Java `trim`: the result is a contiguous slice of the input, and it neither starts nor ends with a character at or below U+0020. |
| Text.TrimIdempotent | jodd-http/src/main/java/jodd/http/HttpBase.java:93-95 | Trimming twice is the same as trimming once. |
| Numbers.ValueOfToRadix | jodd-http/src/main/java/jodd/http/HttpBase.java:611 | The digits written for n in radix 2 to 16 denote n again. |
| Numbers.ParseIntToString | jodd-http/src/main/java/jodd/http/HttpBase.java:585 | `Integer.parseInt` of `String.valueOf(n)` is n for every non-negative Java int, so a Content-Length written by the message parses back to the same number. |
| Reader.ReadLineCRLF | jodd-http/src/main/java/jodd/http/HttpBase.java:558 | `readLine` on a line without line breaks followed by CRLF returns that line and the stream after the CRLF. |
| Latin1.DecodeEncode | jodd-http/src/main/java/jodd/http/HttpBase.java:344-353 | Encoding raw body text to ISO-8859-1 bytes and decoding them gives the text back exactly when every character is below 256. |
| HttpMessage.NormalizeNameIdempotent | jodd-http/src/main/java/jodd/http/HttpBase.java:71 | Normalizing an already normalized header name changes nothing, so stored keys are fixed points of the name normalization. |
| HttpMessage.NewMessage | jodd-http/src/main/java/jodd/http/HttpBase.java:42-46 | A fresh message has version `HTTP/1.1`, no headers, no form, no body, no media type or charset, and the form encoding `UTF-8` (the default copied in at line 319). |
| HttpMessage.GetHeader | jodd-http/src/main/java/jodd/http/HttpBase.java:70-74 | `header(name)` finds a value exactly when the trimmed, lower-cased name is a key of the store. The value is the one stored under that key. |
| HttpMessage.SetHeaderDirect | jodd-http/src/main/java/jodd/http/HttpBase.java:109-113 | After `_header(n, v)`, every name that normalizes like n reads back the trimmed value, and every other name reads back what it did before. An existing key keeps its place, and a new one is appended. Nothing but the headers changes, and the store invariant is kept: unique keys that are trimmed and lower-cased. |
| HttpMessage.SetHeader | jodd-http/src/main/java/jodd/http/HttpBase.java:92-104 | Like `_header`. In addition, when the name is Content-Type in any case or padding, the media type and charset are re-derived from the trimmed value; otherwise they are unchanged. Body, form and version are unchanged. |
| HttpMessage.SetIntHeader | jodd-http/src/main/java/jodd/http/HttpBase.java:119-122 | The header holds the decimal text of the value. For a non-negative Java int, that text parses back to the value. Other headers are unchanged. |
| HttpMessage.RemoveHeader | jodd-http/src/main/java/jodd/http/HttpBase.java:79-83 | Every name that normalizes like n reads as absent afterwards, and every other name is unchanged. In a valid store, exactly the entry with the normalized key is deleted, and the order of the rest is kept. |
| HttpMessage.SetContentType | jodd-http/src/main/java/jodd/http/HttpBase.java:204-224 | An absent argument keeps the current field, and a present one replaces it. The Content-Type header becomes the resulting media type, plus `;charset=c` when a charset is set. No other header changes. |
| HttpMessage.SetCharset | jodd-http/src/main/java/jodd/http/HttpBase.java:151-155 | The charset becomes the argument and the media type is kept. With no charset, the header is the bare media type; with one, it is `media;charset=c`. No other header changes, and body, form, version and form encoding are unchanged. |
| HttpMessage.SetMediaType | jodd-http/src/main/java/jodd/http/HttpBase.java:174-177 | The media type is replaced, or kept when absent, and the charset is kept. The header is rebuilt from those two fields. No other header changes, and body, form, version and form encoding are unchanged. |
| HttpMessage.SetContentTypeText | jodd-http/src/main/java/jodd/http/HttpBase.java:192-195 | The whole Content-Type header is stored trimmed. Media type and charset are re-derived from it, and nothing else changes. |
| HttpMessage.SetContentLength | jodd-http/src/main/java/jodd/http/HttpBase.java:239-242 | Content-Length holds the decimal text of the value, and it parses back to the value. Only that header changes. |
| HttpMessage.SetBody | jodd-http/src/main/java/jodd/http/HttpBase.java:373-378 | The body is the text and the form is gone. Content-Length is the decimal text of the body's length and parses back to it. Content-Type, media type and charset are unchanged. |
| HttpMessage.BodyBytes | jodd-http/src/main/java/jodd/http/HttpBase.java:344-353 | There are bytes exactly when there is a body, with one byte per character. For a body whose characters are all below 256, the bytes decode back to the body. |
| HttpMessage.SetBodyBytes | jodd-http/src/main/java/jodd/http/HttpBase.java:413-421 | The body's bytes are the given content, and the form is gone. Content-Type is the trimmed given text, with media type and charset derived from it. Content-Length is the number of bytes. |
| HttpMessage.InitForm | jodd-http/src/main/java/jodd/http/HttpBase.java:268-272 | Afterwards a form exists: the old one if there was one, otherwise an empty one. Nothing else changes. |
| HttpMessage.SetFormParam | jodd-http/src/main/java/jodd/http/HttpBase.java:277-281 | The name maps to the value, and other names keep their values. An existing name keeps its position, and a new one is appended. |
| HttpMessage.SetFormParams | jodd-http/src/main/java/jodd/http/HttpBase.java:286-296 | Each name ends with the value of its last pair, else the first value if it is the first name, else its old value. The names keep their old order, and new names follow in the order they first occur among the pairs. |
| HttpMessage.SetFormMap | jodd-http/src/main/java/jodd/http/HttpBase.java:301-308 | Each name ends with the value of its last entry in iteration order, else its old value. The names keep their old order, and new names follow in the order they first occur in the map. |
| HttpMessage.FreshFormOrder | jodd-http/src/main/java/jodd/http/HttpBase.java:301-308 | The form of a fresh message built from a map holds each name once, in the order it first occurs in the map. The multipart sections are written in that order. |
| FormPayload.IsFormMultipart | jodd-http/src/main/java/jodd/http/HttpBase.java:428-438 | True exactly when some value of the form is neither a String nor a String[]. |
| FormPayload.PartBody | jodd-http/src/main/java/jodd/http/HttpBase.java:481-512 | A section's content can be written exactly for strings, string arrays and readable files. Otherwise the error is the file read failure or the unsupported type. |
| FormPayload.EncodeParts | jodd-http/src/main/java/jodd/http/HttpBase.java:471-514 | Succeeds exactly when every value can be written, with one content per entry, in order. Otherwise it fails with the error of the first value that cannot be written. |
| FormPayload.MultipartPayload | jodd-http/src/main/java/jodd/http/HttpBase.java:469-516 | The payload exists exactly when every value can be written. Otherwise the error is that of the first value that cannot be. |
| FormPayload.SectionsSplit | jodd-http/src/main/java/jodd/http/HttpBase.java:471-514 | The framed sections split around section i into the sections before it, i's delimiter line, content and CRLF, and the sections after it. |
| FormPayload.MultipartFraming | jodd-http/src/main/java/jodd/http/HttpBase.java:471-516 | In a successful payload, entry i's section is one delimiter line `--boundary` CRLF, its content and a CRLF. The sections come in entry order, and the close delimiter `--boundary--` follows them. |
| FormPayload.FrameEnds | jodd-http/src/main/java/jodd/http/HttpBase.java:473-475 | The framed body opens with the first delimiter line when there is an entry, and it ends with the close delimiter. |
| FormPayload.ArraySection | jodd-http/src/main/java/jodd/http/HttpBase.java:485-491 | For every String[] and every element i: the array gives one section. In it, element i has exactly the disposition block and value a lone String would have. The blocks of the elements before and after it surround it, and no delimiter separates them. |
| FormPayload.UrlencodedForm | jodd-http/src/main/java/jodd/http/HttpBase.java:450-465 | Returns the query built in the declared charset, or in the form encoding when no charset is declared. The media type becomes urlencoded while the current charset stays in the header. Content-Length is the query's length, and no other header changes. |
| FormPayload.MultipartForm | jodd-http/src/main/java/jodd/http/HttpBase.java:467-522 | The multipart branch succeeds exactly when every value can be written. Otherwise it reports the first value that cannot be. On success, Content-Type is `multipart/form-data; boundary=...` and Content-Length is the payload's length. Other headers, form, body and version are unchanged. |
| FormPayload.MultipartFormFraming | jodd-http/src/main/java/jodd/http/HttpBase.java:467-522 | On success over a non-empty form, the payload opens with the first delimiter line and ends with the close delimiter. |
| FormPayload.MultipartHeaders | jodd-http/src/main/java/jodd/http/HttpBase.java:519-520 | Content-Type is the multipart type with the boundary, and media type and charset are derived from it. Content-Length is the payload's length, and all other headers are unchanged. |
| FormPayload.FormString | jodd-http/src/main/java/jodd/http/HttpBase.java:443-522 | An absent or empty form gives "" and no change. An all-text form gives the urlencoded query, with media type urlencoded, the charset kept and Content-Length set. Otherwise it gives the framed multipart payload with its Content-Type and Content-Length, or the error of the first value that cannot be written. On success, other headers, form, body and version are unchanged. |
| Parser.ReadHeaders | jodd-http/src/main/java/jodd/http/HttpBase.java:554-574 | Parsing leaves the stream at a suffix of the input, and changes neither body, form nor version. It keeps the store invariant. A failure names a non-blank line with no colon. |
| Parser.ReadRenderedFields | jodd-http/src/main/java/jodd/http/HttpBase.java:554-574 | Reading `name:value` lines ending in a blank line applies `header(name, value)` for each line in order. It stops right after the blank line. |
| Parser.ReadFieldsToEnd | jodd-http/src/main/java/jodd/http/HttpBase.java:554-574 | `name:value` lines that run to the end of the stream, with no blank line, are all applied in order. The end of the stream ends the headers, and nothing is left. |
| Parser.ReadInvalidLine | jodd-http/src/main/java/jodd/http/HttpBase.java:567-572 | A non-blank line without a colon after good lines fails with that line. |
| Parser.HeadersRoundTrip | jodd-http/src/main/java/jodd/http/HttpBase.java:554-574 | Writing a valid header store out as lines and reading it into a message with no headers restores the store, order included, and leaves the rest of the stream. |
| Parser.ReadChunks | jodd-http/src/main/java/jodd/http/HttpBase.java:604-617 | The decoded data is no longer than the stream. A failure names a non-blank size line that is not a hex number. |
| Parser.ChunkedRoundTrip | jodd-http/src/main/java/jodd/http/HttpBase.java:604-617 | Decoding chunked coding gives back the concatenation of the chunks, whatever follows the last chunk. |
| Parser.ChunkedToEnd | jodd-http/src/main/java/jodd/http/HttpBase.java:604-617 | Chunks cut off before the last chunk still decode to their concatenation, because the end of the stream stops the loop. |
| Parser.WikipediaChunks | jodd-http/src/main/java/jodd/http/HttpBase.java:604-617 | The chunks `4 Wiki`, `5 pedia`, then the last chunk, decode to `Wikipedia`. |
| Parser.ZeroChunkSkipped | jodd-http/src/main/java/jodd/http/HttpBase.java:611-616 | A size line of zero does not end the body: decoding goes on with the next line. |
| Parser.TrailerRejected | jodd-http/src/main/java/jodd/http/HttpBase.java:607-611 | After a zero-size chunk, a trailer field line is read as a size line and rejected with a number-format error. |
| Parser.IsChunked | jodd-http/src/main/java/jodd/http/HttpBase.java:599-600 | Chunked coding needs a Transfer-Encoding value of seven characters, and the value `chunked` always counts. |
| Parser.BodyText | jodd-http/src/main/java/jodd/http/HttpBase.java:583-641 | An unparsable Content-Length is a number-format error, and the body is never longer than the stream. There is no body exactly when neither Content-Length nor chunked coding is present and the version is not HTTP/1.0. |
| Parser.MediaKey | jodd-http/src/main/java/jodd/http/HttpBase.java:644-656 | The media type as the dispatch compares it: empty when unset, otherwise the same length with no upper-case letter, and equal to the media type ignoring case. |
| Parser.ParseBody | jodd-http/src/main/java/jodd/http/HttpBase.java:643-701 | Only the body and the form change. A urlencoded body gives the parsed query as the form. A multipart body fails exactly when the multipart parser fails on the body's bytes in the declared charset or ISO-8859-1; otherwise the form is what the parser returned. Any other media type leaves no form. |
| Parser.ReadBody | jodd-http/src/main/java/jodd/http/HttpBase.java:579-701 | Only the body and the form change. The body is no longer than the stream, and it is absent exactly when there is no framing; then the form is kept. Errors are number-format or multipart-parse failures. |
| Parser.ReadFramed | jodd-http/src/main/java/jodd/http/HttpBase.java:583-596 | Without chunked coding, when Content-Length states the text's length, exactly that text, and nothing that follows it, goes to the media-type dispatch. A multipart text the parser rejects is therefore a failure, not a body. |
| Parser.BodyRoundTrip | jodd-http/src/main/java/jodd/http/HttpBase.java:373-378 | Without chunked coding and for a media type other than multipart, a body set with `body(text)` reads back as that text from a stream that starts with it. |
| Parser.UrlencodedRoundTrip | jodd-http/src/main/java/jodd/http/HttpBase.java:658-661 | Without chunked coding, the urlencoded payload and headers from `formString()` read back as that body and the parsed query. When query parsing inverts query building, the form comes back. |
| Parser.MultipartRoundTrip | jodd-http/src/main/java/jodd/http/HttpBase.java:663-697 | Assume `extractMediaType` maps the declared `multipart/form-data; boundary=...` to `multipart/form-data`. Then, without chunked coding, a multipart payload with the headers `formString()` sets reaches the multipart parser, in the declared charset or ISO-8859-1. The read succeeds exactly when that parser accepts the payload. |
| Parser.ChunkedBody | jodd-http/src/main/java/jodd/http/HttpBase.java:599-623 | With chunked coding, no Content-Length and a media type other than multipart, the body is the concatenation of the chunks. |
| Parser.ChunkedAfterLength | jodd-http/src/main/java/jodd/http/HttpBase.java:583-623 | With both headers and a media type other than multipart, the chunked decoder reads the stream after the Content-Length prefix, and its result is the body. |
| Parser.ReadToEnd | jodd-http/src/main/java/jodd/http/HttpBase.java:626-636 | For HTTP/1.0 with no framing header and a media type other than multipart, the body is the rest of the stream. |

## Left out

- Character-set conversion is left out. That covers `bodyText()` and the
  three `bodyText(...)` setters (`HttpBase.java:360-406`), which call
  `StringUtil.convertCharset`. ISO-8859-1 is modelled as the identity on
  characters below 256 (`Latin1`).
- The `HttpUtil` helpers and the multipart stream parser are function
  parameters whose code is not part of this model. So is the mapping of the
  parser's names to String, String[], FileUpload or FileUpload[] values: the
  parser hands back the form directly.
- Java's `parseQuery(body, true)` takes a decode flag. The modelled `parseQuery`
  has only the text argument.
- File parts are `FileValue(fileName, mimeType, content)`. The file name and
  MIME type are taken as given, and a failed file read has no content.
  `FileNameUtil`, `MimeTypes` and `FileUtil` are file-system and table
  lookups.
- `RandomStringUtil.randomAlphaNumeric(10)` is a parameter: any ten
  alphanumerics.
- `header(name, long)` formats a date through `TimeUtil.formatHttpDate`, which
  is not part of this model.
- `toByteArray`, `sendTo` and `toString` need output streams and the
  subclasses' own rendering.
- `IOException` from the reader cannot occur on an in-memory stream.
  `StreamUtil.copy(reader, writer, n)` is taken to copy `min(n, remaining)`
  characters.
- What is left in the message after an exception is not modelled. Java
  has already changed fields by then, for example the body before a multipart
  parse fails; the model returns only the error.
- `JoddHttp.defaultFormEncoding` is the constant `"UTF-8"`.
- Trivial getters are plain field reads or `GetHeader`: `httpVersion()`,
  `charset()`, `mediaType()`, `contentType()`, `contentLength()`,
  `contentEncoding()`, `acceptEncoding()` and `form()`. The setters
  `httpVersion(v)` and `formEncoding(e)` are plain field writes
  (`m.(httpVersion := v)`), and `acceptEncoding(e)` is `SetHeader` with the
  Accept-Encoding name.
- Numbers.ParseInt: a leading sign is not accepted, whereas
  `Integer.parseInt` also takes `+` and `-`. A negative Content-Length makes
  Java fail while sizing its buffer, and the model fails with a number-format
  error. Non-ASCII digits are not modelled.
- Text.ToLower and Text.EqualsIgnoreCase handle ASCII letters only. Java's
  Unicode case mapping is not modelled.
- HttpMessage.SetFormParams takes the extra pairs already paired. The Java
  varargs call with an odd count fails on the missing value, and the model
  does not represent that call.
- Null form values and null header values are not modelled. A Java `null`
  argument to `contentType` and `charset` is an absent `Option`.
- HttpMessage.SetContentType requires a known media type when none is given.
  Java would write the text `null;charset=c` in that case.
- HttpMessage.SetCharset requires a known media type, for the same reason: it
  rebuilds the header through `contentType(null, c)`.
- HttpMessage.SetMediaType with an absent argument requires a known media
  type, for the same reason: it is `contentType(null, null)`.
- HttpMessage.SetBody counts Content-Length in characters, that is, Unicode
  code points. Java's `body.length()` counts UTF-16 code units. The two agree
  only for text within the Basic Multilingual Plane, which includes every raw
  ISO-8859-1 body the message is meant to carry.
- FormPayload.MultipartHeaders counts the payload's Content-Length in code
  points, where Java's `sb.length()` counts UTF-16 code units. They agree for
  text within the Basic Multilingual Plane.
- Parser.BodyText copies a Content-Length or chunk size of n as n code points,
  where `StreamUtil.copy` copies n UTF-16 code units. They agree for text
  within the Basic Multilingual Plane. The same holds for Parser.ReadChunks
  and FormPayload.UrlencodedForm. For HttpMessage.SetBodyBytes the lengths
  always agree, because its decoded text has only characters below 256.
- Parser.IsChunked: the contract names only the lower-case spelling
  `chunked`. The definition compares ignoring case, as `equalsIgnoreCase`
  does, so `Chunked` and `CHUNKED` count too, but the contract does not list
  every spelling.

Where the documentation and the code differ, the model follows the code.
`readBody` passes no charset to `parseQuery`. The urlencoded branch of
`formString()` keeps the current charset in the Content-Type header, because
it calls `contentType(urlencoded, null)`.

=== FILE: form_payload.dfy ===
/** `formString()`: turning the form into the request payload, either a
    urlencoded query string or a multipart/form-data body in the framing of
    section 4 of RFC 7578, with delimiter lines as in section 5.1.1 of RFC 2046. */
module FormPayload {
  import opened Wrappers
  import opened Text
  import Numbers
  import OrderedMap
  import Seqs
  import opened HttpMessage

  const URLENCODED: string := "application/x-www-form-urlencoded"
  const MULTIPART_FORM_DATA: string := "multipart/form-data"

  /** A value the urlencoded path can write: a `String` or a `String[]`. */
  predicate IsStringValue(v: FormValue) {
    v.StringValue? || v.StringArray?
  }

  /** `isFormMultipart()`: some value is neither a `String` nor a `String[]`. */
  function IsFormMultipart(f: Form): (r: bool)
    ensures r <==> exists i :: 0 <= i < |f| && !IsStringValue(f[i].1)
  {
    if |f| == 0 then false
    else if !IsStringValue(f[0].1) then true
    else
      var r := IsFormMultipart(f[1..]);
      assert forall i :: 1 <= i < |f| ==> f[i] == f[1..][i - 1];
      r
  }

  // ---------------------------------------------------------------- multipart framing

  predicate IsAlphaNumeric(c: char) {
    ('0' <= c <= '9') || ('a' <= c <= 'z') || ('A' <= c <= 'Z')
  }

  /** What `RandomStringUtil.randomAlphaNumeric(10)` yields. */
  predicate IsBoundaryToken(token: string) {
    |token| == 10 && forall i :: 0 <= i < |token| ==> IsAlphaNumeric(token[i])
  }

  /** Ten dashes followed by the random token. */
  function Boundary(token: string): string {
    "----------" + token
  }

  function Opener(boundary: string): string {
    "--" + boundary + CRLF
  }

  function Closer(boundary: string): string {
    "--" + boundary + "--"
  }

  function Disposition(name: string): string {
    "Content-Disposition: form-data; name=\"" + name + "\"" + CRLF
  }

  /** The blocks a `String[]` contributes to its one section: a disposition and
      a value per element, with no delimiter between elements. */
  function ArrayParts(name: string, values: seq<string>): string {
    if |values| == 0 then ""
    else Disposition(name) + CRLF + values[0] + ArrayParts(name, values[1..])
  }

  predicate Encodable(v: FormValue) {
    v.StringValue? || v.StringArray? || (v.FileValue? && v.content.Some?)
  }

  /** The exception a value that cannot be written raises. */
  function PartError(v: FormValue): HttpError
    requires !Encodable(v)
  {
    if v.FileValue? then FileRead(v.fileName) else UnsupportedParameterType(v.typeName)
  }

  /** The content of one section, between its delimiter line and its closing CRLF. */
  function PartBody(name: string, v: FormValue): (r: Result<string, HttpError>)
    ensures r.Success? <==> Encodable(v)
    ensures r.Failure? ==> r.error == PartError(v)
  {
    match v
    case StringValue(text) => Success(Disposition(name) + CRLF + text)
    case StringArray(texts) => Success(ArrayParts(name, texts))
    case FileValue(fileName, mimeType, content) =>
      if content.None? then Failure(FileRead(fileName))
      else Success("Content-Disposition: form-data; name=\"" + name + "\"; filename=\"" + fileName + "\"" + CRLF
                   + "Content-Type: " + mimeType + CRLF
                   + "Content-Transfer-Encoding: binary" + CRLF
                   + CRLF
                   + content.value)
    case OtherValue(typeName) => Failure(UnsupportedParameterType(typeName))
  }

  /** Index `i` holds the first value of `f` that cannot be written. */
  predicate FirstUnencodable(f: Form, i: nat) {
    i < |f| && !Encodable(f[i].1) && forall j :: 0 <= j < i ==> Encodable(f[j].1)
  }

  /** The section contents of all entries in order, or the error of the first
      entry that cannot be written. */
  function EncodeParts(f: Form): (r: Result<seq<string>, HttpError>)
    ensures r.Success? <==> forall i :: 0 <= i < |f| ==> Encodable(f[i].1)
    ensures r.Success? ==> |r.value| == |f|
    ensures r.Success? ==> forall i :: 0 <= i < |f| ==> PartBody(f[i].0, f[i].1) == Success(r.value[i])
    ensures r.Failure? ==> exists i: nat :: FirstUnencodable(f, i) && r.error == PartError(f[i].1)
  {
    if |f| == 0 then Success([])
    else
      match PartBody(f[0].0, f[0].1)
      case Failure(e) =>
        assert FirstUnencodable(f, 0);
        Failure(e)
      case Success(p) =>
        match EncodeParts(f[1..])
        case Failure(e) =>
          ghost var i: nat :| FirstUnencodable(f[1..], i) && e == PartError(f[1..][i].1);
          LaterUnencodable(f, i);
          Failure(e)
        case Success(rest) =>
          ConsEncoded(f, p, rest);
          Success([p] + rest)
  }

  /** The first failure in the tail is the first failure of the whole form
      when the head can be written. */
  lemma LaterUnencodable(f: Form, i: nat)
    requires |f| > 0 && Encodable(f[0].1) && FirstUnencodable(f[1..], i)
    ensures FirstUnencodable(f, i + 1) && f[1..][i] == f[i + 1]
  {
    forall j | 0 < j < i + 1 ensures Encodable(f[j].1) {
      assert f[j] == f[1..][j - 1];
    }
  }

  /** The head's content in front of the tail's contents is one content per entry. */
  lemma ConsEncoded(f: Form, p: string, rest: seq<string>)
    requires |f| > 0 && PartBody(f[0].0, f[0].1) == Success(p) && |rest| == |f| - 1
    requires forall i :: 0 <= i < |f[1..]| ==> PartBody(f[1..][i].0, f[1..][i].1) == Success(rest[i])
    ensures |[p] + rest| == |f|
    ensures forall i :: 0 <= i < |f| ==> PartBody(f[i].0, f[i].1) == Success(([p] + rest)[i])
    ensures forall i :: 0 <= i < |f| ==> Encodable(f[i].1)
  {
    forall i | 0 < i < |f| ensures PartBody(f[i].0, f[i].1) == Success(([p] + rest)[i]) {
      assert f[i] == f[1..][i - 1];
    }
  }

  /** The delimited sections: each is the delimiter line, the content and a CRLF. */
  function Sections(boundary: string, parts: seq<string>): string {
    if |parts| == 0 then ""
    else Opener(boundary) + parts[0] + CRLF + Sections(boundary, parts[1..])
  }

  /** The multipart payload: all sections, then the close delimiter. */
  function MultipartPayload(f: Form, boundary: string): (r: Result<string, HttpError>)
    ensures r.Success? <==> forall i :: 0 <= i < |f| ==> Encodable(f[i].1)
    ensures r.Failure? ==> exists i: nat :: FirstUnencodable(f, i) && r.error == PartError(f[i].1)
  {
    var parts :- EncodeParts(f);
    Success(Sections(boundary, parts) + Closer(boundary))
  }

  /** Section `i` sits between the sections before it and those after it:
      one delimiter line per entry, in entry order. */
  lemma {:induction false} SectionsSplit(boundary: string, parts: seq<string>, i: nat)
    requires i < |parts|
    ensures Sections(boundary, parts) ==
              Sections(boundary, parts[..i]) + Opener(boundary) + parts[i] + CRLF + Sections(boundary, parts[i + 1..])
  {
    if i > 0 {
      SectionsSplit(boundary, parts[1..], i - 1);
      Seqs.SliceShift(parts, i);
      var head := Opener(boundary) + parts[0] + CRLF;
      assert Sections(boundary, parts[..i]) == head + Sections(boundary, parts[1..i]);
      var a, b, c, d := Sections(boundary, parts[1..i]), Opener(boundary), parts[i], CRLF;
      var e := Sections(boundary, parts[i + 1..]);
      Seqs.Assoc(head, a + b + c + d, e);
      Seqs.Assoc(head, a + b + c, d);
      Seqs.Assoc(head, a + b, c);
      Seqs.Assoc(head, a, b);
    } else {
      assert parts[..0] == [];
    }
  }


  /** The framing of a multipart payload: it opens with a delimiter line when
      there is an entry, section `i` holds the content of entry `i` between a
      delimiter line and a CRLF, and it ends with the close delimiter. */
  lemma MultipartFraming(f: Form, boundary: string, i: nat)
    requires MultipartPayload(f, boundary).Success? && i < |f|
    ensures var payload := MultipartPayload(f, boundary).value;
            var parts := EncodeParts(f).value;
            && PartBody(f[i].0, f[i].1) == Success(parts[i])
            && payload == Sections(boundary, parts[..i]) + Opener(boundary) + parts[i] + CRLF
                          + Sections(boundary, parts[i + 1..]) + Closer(boundary)
  {
    SectionsSplit(boundary, EncodeParts(f).value, i);
  }

  /** A successful multipart payload is the sections of the entries' contents
      followed by the close delimiter. */
  lemma MultipartPayloadShape(f: Form, boundary: string)
    requires MultipartPayload(f, boundary).Success?
    ensures EncodeParts(f).Success? && |EncodeParts(f).value| == |f|
    ensures MultipartPayload(f, boundary).value == Sections(boundary, EncodeParts(f).value) + Closer(boundary)
  {
  }


  /** Framed sections start with the first delimiter line (when there is a
      section) and always end with the close delimiter. */
  lemma FrameEnds(boundary: string, parts: seq<string>)
    ensures (Sections(boundary, parts) + Closer(boundary))[|Sections(boundary, parts)|..] == Closer(boundary)
    ensures |parts| > 0 ==> |Sections(boundary, parts)| >= |Opener(boundary)|
    ensures |parts| > 0 ==> (Sections(boundary, parts) + Closer(boundary))[..|Opener(boundary)|] == Opener(boundary)
  {
    Seqs.ConcatSides(Sections(boundary, parts), Closer(boundary));
    if |parts| > 0 {
      OpenerFirst(boundary, parts);
    }
  }

  lemma OpenerFirst(boundary: string, parts: seq<string>)
    requires |parts| > 0
    ensures |Sections(boundary, parts)| >= |Opener(boundary)|
    ensures (Sections(boundary, parts) + Closer(boundary))[..|Opener(boundary)|] == Opener(boundary)
  {
    var opener := Opener(boundary);
    var tail := parts[0] + CRLF + Sections(boundary, parts[1..]);
    var rest := Sections(boundary, parts[1..]);
    Seqs.Assoc(opener + parts[0], CRLF, rest);
    Seqs.Assoc(opener, parts[0], CRLF + rest);
    Seqs.Assoc(parts[0], CRLF, rest);
    assert Sections(boundary, parts) == opener + tail;
    Seqs.Assoc(opener, tail, Closer(boundary));
    Seqs.ConcatSides(opener, tail + Closer(boundary));
  }



  /** The `String[]` quirk: the elements of an array share one section. Element
      `i` contributes exactly the block a lone `String` with its value would,
      between the blocks of the elements before and after it, and no delimiter
      separates them. */
  lemma ArraySection(name: string, values: seq<string>, i: nat)
    requires i < |values|
    ensures PartBody(name, StringArray(values)) ==
              Success(ArrayParts(name, values[..i]) + PartBody(name, StringValue(values[i])).value
                      + ArrayParts(name, values[i + 1..]))
  {
    var pre, post := values[..i], values[i + 1..];
    assert values == pre + ([values[i]] + post);
    ArrayPartsAppend(name, pre, [values[i]] + post);
    assert ([values[i]] + post)[1..] == post;
    Seqs.Assoc(ArrayParts(name, pre), Disposition(name) + CRLF + values[i], ArrayParts(name, post));
  }

  /** The blocks of two runs of array elements follow one another. */
  lemma {:induction false} ArrayPartsAppend(name: string, a: seq<string>, b: seq<string>)
    ensures ArrayParts(name, a + b) == ArrayParts(name, a) + ArrayParts(name, b)
    decreases |a|
  {
    if |a| == 0 {
      assert a + b == b;
    } else {
      assert (a + b)[0] == a[0];
      assert (a + b)[1..] == a[1..] + b;
      ArrayPartsAppend(name, a[1..], b);
      Seqs.Assoc(Disposition(name) + CRLF + a[0], ArrayParts(name, a[1..]), ArrayParts(name, b));
    }
  }

  // ---------------------------------------------------------------- formString

  /** The urlencoded branch of `formString()`: the query string in the
      effective charset (the declared one, else the form encoding); the media
      type becomes urlencoded while the current charset stays in the header. */
  function UrlencodedForm(m: Message, util: HttpUtil, f: Form): (r: (Message, string))
    ensures r.1 == util.buildQuery(f, m.charset.GetOr(m.formEncoding))
    ensures r.0.mediaType == Some(URLENCODED) && r.0.charset == m.charset
    ensures GetHeader(r.0, HEADER_CONTENT_TYPE) == Some(Trim(ContentTypeValue(URLENCODED, m.charset)))
    ensures GetHeader(r.0, HEADER_CONTENT_LENGTH) == Some(Numbers.IntToString(|r.1|))
    ensures forall n :: NormalizeName(n) != NormalizeName(HEADER_CONTENT_TYPE) &&
                        NormalizeName(n) != NormalizeName(HEADER_CONTENT_LENGTH) ==>
                          GetHeader(r.0, n) == GetHeader(m, n)
    ensures r.0.form == m.form && r.0.body == m.body && r.0.httpVersion == m.httpVersion
    ensures Valid(m) ==> Valid(r.0)
  {
    var query := util.buildQuery(f, m.charset.GetOr(m.formEncoding));
    var m1 := SetContentType(m, Some(URLENCODED), None);
    DistinctHeaderNames();
    (SetContentLength(m1, |query|), query)
  }

  /** The multipart branch of `formString()`: the framed payload, with the
      headers of `MultipartHeaders`; the first value that cannot be written
      aborts it. */
  function MultipartForm(m: Message, util: HttpUtil, f: Form, token: string): (r: Result<(Message, string), HttpError>)
    requires IsBoundaryToken(token)
    ensures r.Success? <==> forall i :: 0 <= i < |f| ==> Encodable(f[i].1)
    ensures r.Failure? ==> exists i: nat :: FirstUnencodable(f, i) && r.error == PartError(f[i].1)
    ensures r.Success? ==>
              && GetHeader(r.value.0, HEADER_CONTENT_TYPE) == Some(MultipartContentType(token))
              && GetHeader(r.value.0, HEADER_CONTENT_LENGTH) == Some(Numbers.IntToString(|r.value.1|))
              && (forall n :: NormalizeName(n) != NormalizeName(HEADER_CONTENT_TYPE) &&
                              NormalizeName(n) != NormalizeName(HEADER_CONTENT_LENGTH) ==>
                                GetHeader(r.value.0, n) == GetHeader(m, n))
              && r.value.0.form == m.form && r.value.0.body == m.body && r.value.0.httpVersion == m.httpVersion
  {
    var res := MultipartPayload(f, Boundary(token));
    if res.Failure? then Failure(res.error)
    else Success((MultipartHeaders(m, util, token, res.value), res.value))
  }

  /** The Content-Type the multipart branch declares: the media type and the boundary. */
  function MultipartContentType(token: string): string
    requires IsBoundaryToken(token)
  {
    MULTIPART_FORM_DATA + "; boundary=" + Boundary(token)
  }

  /** The declared Content-Type has no surrounding white space, so the header
      stores it unchanged. */
  lemma MultipartContentTypeTrimmed(token: string)
    requires IsBoundaryToken(token)
    ensures Trim(MultipartContentType(token)) == MultipartContentType(token)
  {
    var r := MultipartContentType(token);
    assert r[|r| - 1] == token[9];
    TrimOfTrimmed(r);
  }

  /** The headers the multipart branch sets once the payload is built. */
  function MultipartHeaders(m: Message, util: HttpUtil, token: string, payload: string): (r: Message)
    requires IsBoundaryToken(token)
    ensures GetHeader(r, HEADER_CONTENT_TYPE) == Some(MultipartContentType(token))
    ensures r.mediaType == util.extractMediaType(MultipartContentType(token))
    ensures r.charset == util.extractContentTypeCharset(MultipartContentType(token))
    ensures GetHeader(r, HEADER_CONTENT_LENGTH) == Some(Numbers.IntToString(|payload|))
    ensures forall n :: NormalizeName(n) != NormalizeName(HEADER_CONTENT_TYPE) &&
                        NormalizeName(n) != NormalizeName(HEADER_CONTENT_LENGTH) ==>
                          GetHeader(r, n) == GetHeader(m, n)
    ensures r.form == m.form && r.body == m.body && r.httpVersion == m.httpVersion
    ensures Valid(m) ==> Valid(r)
  {
    MultipartContentTypeTrimmed(token);
    TypedPayload(m, util, MultipartContentType(token), payload)
  }

  /** `contentType(full)` followed by `contentLength(n)` for a payload. */
  function TypedPayload(m: Message, util: HttpUtil, contentType: string, payload: string): (r: Message)
    requires Trim(contentType) == contentType
    ensures GetHeader(r, HEADER_CONTENT_TYPE) == Some(contentType)
    ensures r.mediaType == util.extractMediaType(contentType)
    ensures r.charset == util.extractContentTypeCharset(contentType)
    ensures GetHeader(r, HEADER_CONTENT_LENGTH) == Some(Numbers.IntToString(|payload|))
    ensures forall n :: NormalizeName(n) != NormalizeName(HEADER_CONTENT_TYPE) &&
                        NormalizeName(n) != NormalizeName(HEADER_CONTENT_LENGTH) ==>
                          GetHeader(r, n) == GetHeader(m, n)
    ensures r.form == m.form && r.body == m.body && r.httpVersion == m.httpVersion
    ensures Valid(m) ==> Valid(r)
  {
    var m1 := SetContentTypeText(m, util, contentType);
    var r := SetContentLength(m1, |payload|);
    DistinctHeaderNames();
    OthersKept(m, m1, r, NormalizeName(HEADER_CONTENT_TYPE), NormalizeName(HEADER_CONTENT_LENGTH));
    r
  }

  /** Two header updates, each keeping every header but its own, keep every
      header but those two. */
  lemma OthersKept(m: Message, m1: Message, r: Message, a: string, b: string)
    requires forall n :: NormalizeName(n) != a ==> GetHeader(m1, n) == GetHeader(m, n)
    requires forall n :: NormalizeName(n) != b ==> GetHeader(r, n) == GetHeader(m1, n)
    ensures forall n :: NormalizeName(n) != a && NormalizeName(n) != b ==> GetHeader(r, n) == GetHeader(m, n)
  {
  }

  /** A payload that opens with the first delimiter line and ends with the
      close delimiter. */
  predicate Framed(payload: string, boundary: string) {
    && |payload| >= |Opener(boundary)| && payload[..|Opener(boundary)|] == Opener(boundary)
    && |payload| >= |Closer(boundary)| && payload[|payload| - |Closer(boundary)|..] == Closer(boundary)
  }

  /** A successful multipart branch over a non-empty form: the payload opens
      with the first delimiter line and ends with the close delimiter. */
  lemma MultipartFormFraming(m: Message, util: HttpUtil, f: Form, token: string)
    requires IsBoundaryToken(token) && |f| > 0
    ensures var r := MultipartForm(m, util, f, token);
            r.Success? ==> Framed(r.value.1, Boundary(token))
  {
    var boundary := Boundary(token);
    if MultipartPayload(f, boundary).Success? {
      MultipartPayloadShape(f, boundary);
      var parts := EncodeParts(f).value;
      FrameEnds(boundary, parts);
    }
  }

  /** `formString()`, with the random boundary token as a parameter: nothing
      for an absent or empty form; the urlencoded query when every value is
      text; otherwise the multipart payload, or the error of the first value
      that cannot be written. Content-Type and Content-Length describe the
      payload returned. */
  function FormString(m: Message, util: HttpUtil, token: string): (r: Result<(Message, string), HttpError>)
    requires IsBoundaryToken(token)
    ensures (m.form.None? || |m.form.value| == 0) ==> r == Success((m, ""))
    ensures m.form.Some? && |m.form.value| > 0 && !IsFormMultipart(m.form.value) ==>
              && r.Success?
              && r.value.1 == util.buildQuery(m.form.value, m.charset.GetOr(m.formEncoding))
              && r.value.0.mediaType == Some(URLENCODED) && r.value.0.charset == m.charset
              && GetHeader(r.value.0, HEADER_CONTENT_LENGTH) == Some(Numbers.IntToString(|r.value.1|))
    ensures m.form.Some? && IsFormMultipart(m.form.value) ==>
              && (r.Success? <==> forall i :: 0 <= i < |m.form.value| ==> Encodable(m.form.value[i].1))
              && (r.Failure? ==> exists i: nat :: FirstUnencodable(m.form.value, i) && r.error == PartError(m.form.value[i].1))
              && (r.Success? ==> Framed(r.value.1, Boundary(token))
                                 && GetHeader(r.value.0, HEADER_CONTENT_TYPE) == Some(MultipartContentType(token))
                                 && GetHeader(r.value.0, HEADER_CONTENT_LENGTH) == Some(Numbers.IntToString(|r.value.1|)))
    ensures r.Success? ==>
              && (forall n :: NormalizeName(n) != NormalizeName(HEADER_CONTENT_TYPE) &&
                              NormalizeName(n) != NormalizeName(HEADER_CONTENT_LENGTH) ==>
                                GetHeader(r.value.0, n) == GetHeader(m, n))
              && r.value.0.form == m.form && r.value.0.body == m.body && r.value.0.httpVersion == m.httpVersion
  {
    if m.form.None? || |m.form.value| == 0 then Success((m, ""))
    else if !IsFormMultipart(m.form.value) then Success(UrlencodedForm(m, util, m.form.value))
    else
      MultipartFormFraming(m, util, m.form.value, token);
      MultipartForm(m, util, m.form.value, token)
  }
}

=== FILE: latin1.dfy ===
/** The fixed single-byte wire encoding, ISO-8859-1, in which the raw body is
    held: `String.getBytes("ISO-8859-1")` and `new String(bytes, "ISO-8859-1")`. */
module Latin1 {

  newtype byte = x: int | 0 <= x < 256

  /** Chars the encoding cannot represent are written as '?', as Java's encoder does. */
  function EncodeChar(c: char): byte {
    if c as int < 256 then c as int as byte else '?' as int as byte
  }

  predicate Representable(s: string) {
    forall i :: 0 <= i < |s| ==> s[i] as int < 256
  }

  function Encode(s: string): (b: seq<byte>)
    ensures |b| == |s|
    ensures forall i :: 0 <= i < |s| ==> b[i] == EncodeChar(s[i])
  {
    seq(|s|, i requires 0 <= i < |s| => EncodeChar(s[i]))
  }

  function Decode(b: seq<byte>): (s: string)
    ensures |s| == |b|
    ensures forall i :: 0 <= i < |b| ==> s[i] as int == b[i] as int
  {
    seq(|b|, i requires 0 <= i < |b| => b[i] as int as char)
  }

  /** Every byte string survives decoding and re-encoding. */
  lemma EncodeDecode(b: seq<byte>)
    ensures Representable(Decode(b))
    ensures Encode(Decode(b)) == b
  {
  }

  /** A string survives encoding and decoding exactly when every char is
      below 256. */
  lemma DecodeEncode(s: string)
    ensures Decode(Encode(s)) == s <==> Representable(s)
  {
    if !Representable(s) {
      var i :| 0 <= i < |s| && s[i] as int >= 256;
      assert Decode(Encode(s))[i] != s[i];
    }
  }
}

=== FILE: message.dfy ===
/** The in-memory HTTP message of `HttpBase`: an insertion-ordered header
    store with case-insensitive names, the media type and charset kept in step
    with the Content-Type header, a raw body and an optional form. Every Java
    mutator becomes a function from the old message to the new one. */
module HttpMessage {
  import opened Wrappers
  import opened Text
  import Numbers
  import OrderedMap
  import Latin1

  const HEADER_ACCEPT_ENCODING: string := "Accept-Encoding"
  const HEADER_CONTENT_TYPE: string := "Content-Type"
  const HEADER_CONTENT_LENGTH: string := "Content-Length"
  const HEADER_CONTENT_ENCODING: string := "Content-Encoding"
  const HEADER_HOST: string := "Host"
  const HEADER_ETAG: string := "ETag"
  const HEADER_TRANSFER_ENCODING: string := "Transfer-Encoding"

  const DEFAULT_HTTP_VERSION: string := "HTTP/1.1"
  /** The process-wide default form encoding, read once when a message is made. */
  const DEFAULT_FORM_ENCODING: string := "UTF-8"
  /** The wire encoding, used as the charset when none is declared. */
  const ISO_8859_1: string := "ISO-8859-1"

  /** The kinds of value a form parameter may hold. `OtherValue` is any other
      Java object (a `File[]`, an uploaded file read back from a request, ...),
      identified by its class name. A file's content is `None` when reading it fails. */
  datatype FormValue =
    | StringValue(text: string)
    | StringArray(texts: seq<string>)
    | FileValue(fileName: string, mimeType: string, content: Option<string>)
    | OtherValue(typeName: string)

  type Form = OrderedMap.Entries<FormValue>
  type Headers = OrderedMap.Entries<string>

  /** The `HttpException` and `NumberFormatException` cases of the message code. */
  datatype HttpError =
    | InvalidHeader(line: string)
    | NumberFormat(input: string)
    | UnsupportedParameterType(typeName: string)
    | FileRead(fileName: string)
    | MultipartParse

  /** The collaborators whose code is not part of this model, passed in as
      functions: Content-Type parsing and query-string coding of `HttpUtil`,
      and the multipart stream parser (`None` when it fails). */
  datatype HttpUtil = HttpUtil(
    extractMediaType: string -> Option<string>,
    extractContentTypeCharset: string -> Option<string>,
    buildQuery: (Form, string) -> string,
    parseQuery: string -> Form,
    parseMultipart: (seq<Latin1.byte>, string) -> Option<Form>)

  datatype Message = Message(
    httpVersion: string,
    headers: Headers,
    form: Option<Form>,
    body: Option<string>,
    mediaType: Option<string>,
    charset: Option<string>,
    formEncoding: string)

  // ---------------------------------------------------------------- headers

  /** Header names are stored trimmed and lower-cased. */
  function NormalizeName(name: string): string {
    ToLower(Trim(name))
  }

  lemma NormalizeNameIdempotent(name: string)
    ensures NormalizeName(NormalizeName(name)) == NormalizeName(name)
  {
    var t := Trim(name);
    var l := ToLower(t);
    TrimOfTrimmed(l);
    ToLowerIdempotent(t);
  }

  /** The store invariant: keys are unique and already normalized. */
  predicate HeadersValid(h: Headers) {
    && OrderedMap.UniqueKeys(h)
    && forall k :: k in OrderedMap.Keys(h) ==> NormalizeName(k) == k
  }

  predicate Valid(m: Message) {
    HeadersValid(m.headers)
  }

  lemma PutValid(h: Headers, k: string, v: string)
    requires NormalizeName(k) == k
    ensures HeadersValid(h) ==> HeadersValid(OrderedMap.Put(h, k, v))
  {
    if !HeadersValid(h) { return; }
    var r := OrderedMap.Put(h, k, v);
    OrderedMap.PutUnique(h, k, v);
    forall k' | k' in OrderedMap.Keys(r) ensures NormalizeName(k') == k' {
      if k' != k {
        assert OrderedMap.Get(r, k') == OrderedMap.Get(h, k');
      }
    }
  }

  /** A fresh message: HTTP/1.1, no headers, no form, no body. */
  function NewMessage(): (m: Message)
    ensures Valid(m)
    ensures forall n :: GetHeader(m, n).None?
    ensures m.form.None? && m.body.None? && m.mediaType.None? && m.charset.None?
    ensures m.httpVersion == "HTTP/1.1" && m.formEncoding == "UTF-8"
  {
    Message(DEFAULT_HTTP_VERSION, [], None, None, None, None, DEFAULT_FORM_ENCODING)
  }

  /** `header(name)`: the value stored under the normalized name. */
  function GetHeader(m: Message, name: string): (r: Option<string>)
    ensures r.Some? <==> NormalizeName(name) in OrderedMap.Keys(m.headers)
    ensures r.Some? ==> (NormalizeName(name), r.value) in m.headers
  {
    OrderedMap.Get(m.headers, NormalizeName(name))
  }

  /** `_header(name, value)`: store the trimmed value under the normalized name,
      with no Content-Type side effect. */
  function SetHeaderDirect(m: Message, name: string, value: string): (r: Message)
    ensures forall n :: NormalizeName(n) == NormalizeName(name) ==> GetHeader(r, n) == Some(Trim(value))
    ensures forall n :: NormalizeName(n) != NormalizeName(name) ==> GetHeader(r, n) == GetHeader(m, n)
    ensures NormalizeName(name) in OrderedMap.Keys(m.headers) ==> OrderedMap.Keys(r.headers) == OrderedMap.Keys(m.headers)
    ensures NormalizeName(name) !in OrderedMap.Keys(m.headers) ==>
              r.headers == m.headers + [(NormalizeName(name), Trim(value))]
    ensures r == m.(headers := r.headers)
    ensures Valid(m) ==> Valid(r)
  {
    var key := NormalizeName(name);
    NormalizeNameIdempotent(name);
    PutValid(m.headers, key, Trim(value));
    m.(headers := OrderedMap.Put(m.headers, key, Trim(value)))
  }

  /** Whether `header(name, value)` treats `name` as the Content-Type header. */
  predicate IsContentTypeName(name: string) {
    EqualsIgnoreCase(NormalizeName(name), HEADER_CONTENT_TYPE)
  }

  lemma ContentTypeName(name: string)
    ensures IsContentTypeName(name) <==> NormalizeName(name) == NormalizeName(HEADER_CONTENT_TYPE)
  {
    TrimOfTrimmed(HEADER_CONTENT_TYPE);
    ToLowerIdempotent(Trim(name));
  }

  /** `header(name, value)`: like `SetHeaderDirect`, and when the name is
      Content-Type also re-derive media type and charset from the new value. */
  function SetHeader(m: Message, util: HttpUtil, name: string, value: string): (r: Message)
    ensures forall n :: NormalizeName(n) == NormalizeName(name) ==> GetHeader(r, n) == Some(Trim(value))
    ensures forall n :: NormalizeName(n) != NormalizeName(name) ==> GetHeader(r, n) == GetHeader(m, n)
    ensures NormalizeName(name) in OrderedMap.Keys(m.headers) ==> OrderedMap.Keys(r.headers) == OrderedMap.Keys(m.headers)
    ensures NormalizeName(name) !in OrderedMap.Keys(m.headers) ==>
              r.headers == m.headers + [(NormalizeName(name), Trim(value))]
    ensures NormalizeName(name) == NormalizeName(HEADER_CONTENT_TYPE) ==>
              r.mediaType == util.extractMediaType(Trim(value)) &&
              r.charset == util.extractContentTypeCharset(Trim(value))
    ensures NormalizeName(name) != NormalizeName(HEADER_CONTENT_TYPE) ==>
              r.mediaType == m.mediaType && r.charset == m.charset
    ensures r.body == m.body && r.form == m.form && r.httpVersion == m.httpVersion && r.formEncoding == m.formEncoding
    ensures Valid(m) ==> Valid(r)
  {
    var v := Trim(value);
    ContentTypeName(name);
    var m1 := if IsContentTypeName(name)
      then m.(mediaType := util.extractMediaType(v), charset := util.extractContentTypeCharset(v))
      else m;
    SetHeaderDirect(m1, name, value)
  }

  /** `header(name, int)`: the decimal text of `value`, stored directly. */
  function SetIntHeader(m: Message, name: string, value: int): (r: Message)
    ensures forall n :: NormalizeName(n) == NormalizeName(name) ==> GetHeader(r, n) == Some(Numbers.IntToString(value))
    ensures 0 <= value <= Numbers.MAX_INT ==>
              Numbers.ParseInt(GetHeader(r, name).value, 10) == Some(value)
    ensures forall n :: NormalizeName(n) != NormalizeName(name) ==> GetHeader(r, n) == GetHeader(m, n)
    ensures r == m.(headers := r.headers)
    ensures Valid(m) ==> Valid(r)
  {
    var text := Numbers.IntToString(value);
    TrimOfTrimmed(text);
    ParseIntOfText(value);
    SetHeaderDirect(m, name, text)
  }

  lemma ParseIntOfText(value: int)
    ensures 0 <= value <= Numbers.MAX_INT ==> Numbers.ParseInt(Numbers.IntToString(value), 10) == Some(value)
  {
    if 0 <= value <= Numbers.MAX_INT {
      Numbers.ParseIntToString(value);
    }
  }

  /** `removeHeader(name)`: delete the entry under the normalized name, if any. */
  function RemoveHeader(m: Message, name: string): (r: Message)
    ensures forall n :: NormalizeName(n) == NormalizeName(name) ==> GetHeader(r, n).None?
    ensures forall n :: NormalizeName(n) != NormalizeName(name) ==> GetHeader(r, n) == GetHeader(m, n)
    ensures Valid(m) ==> Valid(r)
    ensures Valid(m) ==> forall i :: 0 <= i < |m.headers| && m.headers[i].0 == NormalizeName(name) ==>
              r.headers == m.headers[..i] + m.headers[i + 1..]
    ensures NormalizeName(name) !in OrderedMap.Keys(m.headers) ==> r == m
    ensures r == m.(headers := r.headers)
  {
    var key := NormalizeName(name);
    var h := OrderedMap.Remove(m.headers, key);
    OrderedMap.RemoveLookups(m.headers, key);
    RemoveValid(m.headers, key);
    m.(headers := h)
  }

  lemma RemoveValid(h: Headers, k: string)
    ensures HeadersValid(h) ==> HeadersValid(OrderedMap.Remove(h, k))
    ensures HeadersValid(h) ==> forall i :: 0 <= i < |h| && h[i].0 == k ==> OrderedMap.Remove(h, k) == h[..i] + h[i + 1..]
  {
    if !HeadersValid(h) { return; }
    var r := OrderedMap.Remove(h, k);
    OrderedMap.RemoveUnique(h, k);
    OrderedMap.RemoveLookups(h, k);
    forall k' | k' in OrderedMap.Keys(r) ensures NormalizeName(k') == k' {
      assert OrderedMap.Get(r, k') == OrderedMap.Get(h, k');
    }
    forall i | 0 <= i < |h| && h[i].0 == k ensures r == h[..i] + h[i + 1..] {
      OrderedMap.RemoveAtIndex(h, i);
    }
  }

  // ---------------------------------------------------------------- content type

  /** The Content-Type text rebuilt from its parts: `media[;charset=c]`. */
  function ContentTypeValue(media: string, charset: Option<string>): string {
    if charset.Some? then media + ";charset=" + charset.value else media
  }

  /** `contentType(mediaType, charset)`: each absent argument keeps the current
      field, each present one replaces it, and the header is rebuilt from the
      resulting fields (other Content-Type parameters are lost). The current
      media type must be known when none is given. */
  function SetContentType(m: Message, mediaType: Option<string>, charset: Option<string>): (r: Message)
    requires mediaType.Some? || m.mediaType.Some?
    ensures r.mediaType == (if mediaType.Some? then mediaType else m.mediaType)
    ensures r.charset == (if charset.Some? then charset else m.charset)
    ensures GetHeader(r, HEADER_CONTENT_TYPE) == Some(Trim(ContentTypeValue(r.mediaType.value, r.charset)))
    ensures forall n :: NormalizeName(n) != NormalizeName(HEADER_CONTENT_TYPE) ==> GetHeader(r, n) == GetHeader(m, n)
    ensures r.body == m.body && r.form == m.form && r.httpVersion == m.httpVersion && r.formEncoding == m.formEncoding
    ensures Valid(m) ==> Valid(r)
  {
    var media := if mediaType.Some? then mediaType.value else m.mediaType.value;
    var cs := if charset.Some? then charset else m.charset;
    SetHeaderDirect(m.(mediaType := Some(media), charset := cs), HEADER_CONTENT_TYPE, ContentTypeValue(media, cs))
  }

  /** `charset(c)`: replace the charset, or with `None` remove it from the
      header, keeping the media type. */
  function SetCharset(m: Message, charset: Option<string>): (r: Message)
    requires m.mediaType.Some?
    ensures r.charset == charset && r.mediaType == m.mediaType
    ensures charset.None? ==> GetHeader(r, HEADER_CONTENT_TYPE) == Some(Trim(m.mediaType.value))
    ensures charset.Some? ==>
              GetHeader(r, HEADER_CONTENT_TYPE) == Some(Trim(m.mediaType.value + ";charset=" + charset.value))
    ensures forall n :: NormalizeName(n) != NormalizeName(HEADER_CONTENT_TYPE) ==> GetHeader(r, n) == GetHeader(m, n)
    ensures r.body == m.body && r.form == m.form && r.httpVersion == m.httpVersion && r.formEncoding == m.formEncoding
    ensures Valid(m) ==> Valid(r)
  {
    SetContentType(m.(charset := None), None, charset)
  }

  /** `mediaType(t)`: replace the media type keeping the charset; `None` keeps
      the current media type and only rebuilds the header. */
  function SetMediaType(m: Message, mediaType: Option<string>): (r: Message)
    requires mediaType.Some? || m.mediaType.Some?
    ensures r.charset == m.charset
    ensures r.mediaType == (if mediaType.Some? then mediaType else m.mediaType)
    ensures GetHeader(r, HEADER_CONTENT_TYPE) == Some(Trim(ContentTypeValue(r.mediaType.value, m.charset)))
    ensures forall n :: NormalizeName(n) != NormalizeName(HEADER_CONTENT_TYPE) ==> GetHeader(r, n) == GetHeader(m, n)
    ensures r.body == m.body && r.form == m.form && r.httpVersion == m.httpVersion && r.formEncoding == m.formEncoding
    ensures Valid(m) ==> Valid(r)
  {
    SetContentType(m, mediaType, None)
  }

  /** `contentType(full)`: store the whole header and let the Content-Type
      side effect of `header` re-derive both fields from it. */
  function SetContentTypeText(m: Message, util: HttpUtil, contentType: string): (r: Message)
    ensures GetHeader(r, HEADER_CONTENT_TYPE) == Some(Trim(contentType))
    ensures r.mediaType == util.extractMediaType(Trim(contentType))
    ensures r.charset == util.extractContentTypeCharset(Trim(contentType))
    ensures forall n :: NormalizeName(n) != NormalizeName(HEADER_CONTENT_TYPE) ==> GetHeader(r, n) == GetHeader(m, n)
    ensures r.body == m.body && r.form == m.form && r.httpVersion == m.httpVersion && r.formEncoding == m.formEncoding
    ensures Valid(m) ==> Valid(r)
  {
    SetHeader(m, util, HEADER_CONTENT_TYPE, contentType)
  }

  /** `contentLength(n)`. */
  function SetContentLength(m: Message, value: int): (r: Message)
    ensures GetHeader(r, HEADER_CONTENT_LENGTH) == Some(Numbers.IntToString(value))
    ensures 0 <= value <= Numbers.MAX_INT ==>
              Numbers.ParseInt(GetHeader(r, HEADER_CONTENT_LENGTH).value, 10) == Some(value)
    ensures forall n :: NormalizeName(n) != NormalizeName(HEADER_CONTENT_LENGTH) ==> GetHeader(r, n) == GetHeader(m, n)
    ensures r == m.(headers := r.headers)
    ensures Valid(m) ==> Valid(r)
  {
    SetIntHeader(m, HEADER_CONTENT_LENGTH, value)
  }

  // ---------------------------------------------------------------- body

  /** `body(text)`: store the raw body, discard the form, and set
      Content-Length to the body's length in chars; Content-Type is untouched. */
  function SetBody(m: Message, body: string): (r: Message)
    ensures r.body == Some(body) && r.form.None?
    ensures GetHeader(r, HEADER_CONTENT_LENGTH) == Some(Numbers.IntToString(|body|))
    ensures |body| <= Numbers.MAX_INT ==>
              Numbers.ParseInt(GetHeader(r, HEADER_CONTENT_LENGTH).value, 10) == Some(|body|)
    ensures forall n :: NormalizeName(n) != NormalizeName(HEADER_CONTENT_LENGTH) ==> GetHeader(r, n) == GetHeader(m, n)
    ensures r.mediaType == m.mediaType && r.charset == m.charset
    ensures r.httpVersion == m.httpVersion && r.formEncoding == m.formEncoding
    ensures Valid(m) ==> Valid(r)
  {
    SetContentLength(m.(body := Some(body), form := None), |body|)
  }

  /** `bodyBytes()`: the raw body in the wire encoding. */
  function BodyBytes(m: Message): (r: Option<seq<Latin1.byte>>)
    ensures r.Some? <==> m.body.Some?
    ensures r.Some? ==> |r.value| == |m.body.value|
    ensures r.Some? && Latin1.Representable(m.body.value) ==> Latin1.Decode(r.value) == m.body.value
  {
    if m.body.None? then None
    else
      Latin1.DecodeEncode(m.body.value);
      Some(Latin1.Encode(m.body.value))
  }

  /** `body(bytes, contentType)`: set the full Content-Type, then the body
      decoded from the wire encoding. */
  function SetBodyBytes(m: Message, util: HttpUtil, content: seq<Latin1.byte>, contentType: string): (r: Message)
    ensures BodyBytes(r) == Some(content)
    ensures r.form.None?
    ensures GetHeader(r, HEADER_CONTENT_TYPE) == Some(Trim(contentType))
    ensures r.mediaType == util.extractMediaType(Trim(contentType))
    ensures r.charset == util.extractContentTypeCharset(Trim(contentType))
    ensures GetHeader(r, HEADER_CONTENT_LENGTH) == Some(Numbers.IntToString(|content|))
    ensures Valid(m) ==> Valid(r)
  {
    var text := Latin1.Decode(content);
    Latin1.EncodeDecode(content);
    DistinctHeaderNames();
    SetBody(SetContentTypeText(m, util, contentType), text)
  }

  /** The normalized names of the headers the message code treats specially differ. */
  lemma DistinctHeaderNames()
    ensures NormalizeName(HEADER_CONTENT_TYPE) != NormalizeName(HEADER_CONTENT_LENGTH)
    ensures NormalizeName(HEADER_TRANSFER_ENCODING) != NormalizeName(HEADER_CONTENT_LENGTH)
    ensures NormalizeName(HEADER_TRANSFER_ENCODING) != NormalizeName(HEADER_CONTENT_TYPE)
  {
    HeaderKeyLengths();
  }

  /** Normalizing these names only lower-cases them, so their lengths stay apart. */
  lemma HeaderKeyLengths()
    ensures |NormalizeName(HEADER_CONTENT_TYPE)| == 12
    ensures |NormalizeName(HEADER_CONTENT_LENGTH)| == 14
    ensures |NormalizeName(HEADER_TRANSFER_ENCODING)| == 17
  {
    ContentTypeKeyLength();
    ContentLengthKeyLength();
    TransferEncodingKeyLength();
  }

  lemma ContentTypeKeyLength()
    ensures |NormalizeName(HEADER_CONTENT_TYPE)| == 12
  {
    NormalizedLength(HEADER_CONTENT_TYPE);
  }

  lemma ContentLengthKeyLength()
    ensures |NormalizeName(HEADER_CONTENT_LENGTH)| == 14
  {
    NormalizedLength(HEADER_CONTENT_LENGTH);
  }

  lemma TransferEncodingKeyLength()
    ensures |NormalizeName(HEADER_TRANSFER_ENCODING)| == 17
  {
    NormalizedLength(HEADER_TRANSFER_ENCODING);
  }

  lemma NormalizedLength(name: string)
    requires name == [] || (!IsWhite(name[0]) && !IsWhite(name[|name| - 1]))
    ensures |NormalizeName(name)| == |name|
  {
    TrimOfTrimmed(name);
  }

  // ---------------------------------------------------------------- form

  /** The form as a (possibly empty) entry list. */
  function CurrentForm(m: Message): Form {
    m.form.GetOr([])
  }

  /** `initForm()`: create the form on first use; an existing form is kept. */
  function InitForm(m: Message): (r: Message)
    ensures r.form.Some? && r.form.value == CurrentForm(m)
    ensures m.form.Some? ==> r == m
    ensures r == m.(form := r.form)
  {
    if m.form.None? then m.(form := Some([])) else m
  }

  /** `form(name, value)`: put one parameter, keeping the position of a name
      already present. */
  function SetFormParam(m: Message, name: string, value: FormValue): (r: Message)
    ensures r.form.Some?
    ensures OrderedMap.Get(r.form.value, name) == Some(value)
    ensures forall n :: n != name ==> OrderedMap.Get(r.form.value, n) == OrderedMap.Get(CurrentForm(m), n)
    ensures name in OrderedMap.Keys(CurrentForm(m)) ==> OrderedMap.Keys(r.form.value) == OrderedMap.Keys(CurrentForm(m))
    ensures name !in OrderedMap.Keys(CurrentForm(m)) ==> r.form.value == CurrentForm(m) + [(name, value)]
    ensures r == m.(form := r.form)
  {
    var m1 := InitForm(m);
    m1.(form := Some(OrderedMap.Put(m1.form.value, name, value)))
  }

  /** `form(name, value, n1, v1, n2, v2, ...)`: the first pair, then the
      remaining pairs in order; a later pair for a name overrides an earlier one. */
  function SetFormParams(m: Message, name: string, value: FormValue, more: seq<(string, FormValue)>): (r: Message)
    ensures r.form.Some?
    ensures forall n :: OrderedMap.Get(r.form.value, n) ==
              if OrderedMap.LastValue(more, n).Some? then OrderedMap.LastValue(more, n)
              else if n == name then Some(value)
              else OrderedMap.Get(CurrentForm(m), n)
    ensures OrderedMap.Keys(r.form.value) ==
              OrderedMap.Keys(CurrentForm(m)) +
              OrderedMap.FirstOccurrences(OrderedMap.Keys([(name, value)] + more), OrderedMap.Keys(CurrentForm(m)))
    ensures r == m.(form := r.form)
  {
    var m1 := SetFormParam(m, name, value);
    OrderedMap.PutAllLookups(m1.form.value, more);
    OrderedMap.PutAllCons(CurrentForm(m), (name, value), more);
    OrderedMap.PutAllKeys(CurrentForm(m), [(name, value)] + more);
    m1.(form := Some(OrderedMap.PutAll(m1.form.value, more)))
  }

  /** `form(map)`: every entry of `entries`, in the map's iteration order. */
  function SetFormMap(m: Message, entries: seq<(string, FormValue)>): (r: Message)
    ensures r.form.Some?
    ensures forall n :: OrderedMap.Get(r.form.value, n) ==
              if OrderedMap.LastValue(entries, n).Some? then OrderedMap.LastValue(entries, n)
              else OrderedMap.Get(CurrentForm(m), n)
    ensures OrderedMap.Keys(r.form.value) ==
              OrderedMap.Keys(CurrentForm(m)) +
              OrderedMap.FirstOccurrences(OrderedMap.Keys(entries), OrderedMap.Keys(CurrentForm(m)))
    ensures r == m.(form := r.form)
  {
    var m1 := InitForm(m);
    OrderedMap.PutAllLookups(m1.form.value, entries);
    OrderedMap.PutAllKeys(m1.form.value, entries);
    m1.(form := Some(OrderedMap.PutAll(m1.form.value, entries)))
  }

  /** Building the form of a fresh message from a map: its names come out in
      the order they first occur in the map, each once, which is the order the
      form is later encoded in. */
  lemma FreshFormOrder(entries: seq<(string, FormValue)>)
    ensures OrderedMap.Keys(SetFormMap(NewMessage(), entries).form.value) ==
              OrderedMap.FirstOccurrences(OrderedMap.Keys(entries), [])
  {
    assert OrderedMap.Keys(CurrentForm(NewMessage())) == [];
  }
}

=== FILE: numbers.dfy ===
/** Integer text conversions used by the message: `String.valueOf(int)` when a
    length is written into a header, and `Integer.parseInt(s, radix)` when a
    Content-Length value or a chunk-size line is read back. */
module Numbers {
  import opened Wrappers

  /** `Integer.MAX_VALUE`: `parseInt` rejects anything larger. */
  const MAX_INT: nat := 0x7FFF_FFFF

  /** `Character.digit(c, 36)` on ASCII: digits, then letters of either case. */
  function DigitValue(c: char): Option<nat> {
    if '0' <= c <= '9' then Some(c as int - '0' as int)
    else if 'a' <= c <= 'z' then Some(c as int - 'a' as int + 10)
    else if 'A' <= c <= 'Z' then Some(c as int - 'A' as int + 10)
    else None
  }

  predicate IsDigit(c: char, radix: nat) {
    DigitValue(c).Some? && DigitValue(c).value < radix
  }

  predicate AllDigits(s: string, radix: nat) {
    forall i :: 0 <= i < |s| ==> IsDigit(s[i], radix)
  }

  /** The number a digit string denotes, most significant digit first. */
  function ValueOf(s: string, radix: nat): nat
    requires AllDigits(s, radix)
  {
    if |s| == 0 then 0
    else ValueOf(s[..|s| - 1], radix) * radix + DigitValue(s[|s| - 1]).value
  }

  /** `Integer.parseInt(s, radix)` for unsigned input: a non-empty run of
      digits whose value fits in a Java `int`; anything else is the
      `NumberFormatException` case. */
  function ParseInt(s: string, radix: nat): (r: Option<nat>)
    requires 2 <= radix <= 36
    ensures r.Some? ==> r.value <= MAX_INT
    ensures r.Some? ==> |s| > 0 && forall i :: 0 <= i < |s| ==> IsDigit(s[i], radix)
  {
    if |s| > 0 && AllDigits(s, radix) && ValueOf(s, radix) <= MAX_INT
    then Some(ValueOf(s, radix))
    else None
  }

  /** Lower-case digit character for `d`, as `Integer.toString(n, radix)` writes it. */
  function DigitChar(d: nat): (c: char)
    requires d < 16
    ensures DigitValue(c) == Some(d)
    ensures c != '\r' && c != '\n' && c > ' ' && c != '-'
  {
    if d < 10 then ('0' as int + d) as char else ('a' as int + d - 10) as char
  }

  /** The digits of `n` in `radix`, without leading zeros. */
  function ToRadix(n: nat, radix: nat): (r: string)
    requires 2 <= radix <= 16
    ensures |r| > 0 && DigitText(r, radix)
    decreases n
  {
    if n < radix then
      var r := [DigitChar(n)];
      assert DigitText(r, radix);
      r
    else
      DivStep(n, radix);
      var hi := ToRadix(n / radix, radix);
      var c := DigitChar(n % radix);
      DigitTextSnoc(hi, c, radix);
      hi + [c]
  }

  /** Dividing by the radix shrinks the number and leaves a digit. */
  lemma DivStep(n: nat, radix: nat)
    requires 2 <= radix <= n
    ensures n / radix < n && n % radix < radix
  {
  }

  /** Digits in `radix` that are also visible, line-break-free characters. */
  predicate DigitText(s: string, radix: nat) {
    forall i :: 0 <= i < |s| ==> IsDigit(s[i], radix) && s[i] > ' ' && s[i] != '\r' && s[i] != '\n'
  }

  lemma DigitTextSnoc(s: string, c: char, radix: nat)
    requires DigitText(s, radix) && IsDigit(c, radix) && c > ' ' && c != '\r' && c != '\n'
    ensures DigitText(s + [c], radix)
  {
    forall i | 0 <= i < |s| + 1
      ensures IsDigit((s + [c])[i], radix) && (s + [c])[i] > ' ' && (s + [c])[i] != '\r' && (s + [c])[i] != '\n'
    {
      if i < |s| { assert (s + [c])[i] == s[i]; }
    }
  }

  /** `String.valueOf(int)`: decimal digits with a leading minus for negatives. */
  function IntToString(v: int): (r: string)
    ensures |r| > 0 && r[0] > ' ' && r[|r| - 1] > ' '
    ensures v >= 0 ==> r == ToRadix(v, 10)
  {
    if v < 0 then "-" + ToRadix(-v, 10) else ToRadix(v, 10)
  }

  /** Reading back what `ToRadix` wrote gives the original number. */
  lemma {:induction false} ValueOfToRadix(n: nat, radix: nat)
    requires 2 <= radix <= 16
    ensures ValueOf(ToRadix(n, radix), radix) == n
    decreases n
  {
    if n < radix {
      ToRadixSingle(n, radix);
    } else {
      ValueOfToRadix(n / radix, radix);
      ToRadixStep(n, radix);
    }
  }

  lemma ToRadixSingle(n: nat, radix: nat)
    requires 2 <= radix <= 16 && n < radix
    ensures ValueOf(ToRadix(n, radix), radix) == n
  {
    assert ToRadix(n, radix) == [DigitChar(n)];
    ValueOfSingle(DigitChar(n), radix);
  }

  lemma ToRadixStep(n: nat, radix: nat)
    requires 2 <= radix <= 16 && n >= radix
    requires ValueOf(ToRadix(n / radix, radix), radix) == n / radix
    ensures ValueOf(ToRadix(n, radix), radix) == n
  {
    var q, d := n / radix, n % radix;
    var hi := ToRadix(q, radix);
    assert ToRadix(n, radix) == hi + [DigitChar(d)];
    ValueOfSnoc(hi, DigitChar(d), radix);
    DivMod(n, radix);
  }

  lemma ValueOfSingle(c: char, radix: nat)
    requires IsDigit(c, radix)
    ensures AllDigits([c], radix) && ValueOf([c], radix) == DigitValue(c).value
  {
    assert [c][..0] == [];
  }

  lemma ValueOfSnoc(s: string, c: char, radix: nat)
    requires AllDigits(s, radix) && IsDigit(c, radix)
    ensures AllDigits(s + [c], radix)
    ensures ValueOf(s + [c], radix) == ValueOf(s, radix) * radix + DigitValue(c).value
  {
    assert (s + [c])[..|s|] == s;
  }

  lemma DivMod(n: nat, radix: nat)
    requires radix > 0
    ensures n == (n / radix) * radix + n % radix
  {
  }

  /** Round trip: `Integer.parseInt(String.valueOf(n))` is `n` for every
      non-negative Java `int`, in both radixes the message uses. */
  lemma ParseIntToRadix(n: nat, radix: nat)
    requires n <= MAX_INT && (radix == 10 || radix == 16)
    ensures ParseInt(ToRadix(n, radix), radix) == Some(n)
  {
    ValueOfToRadix(n, radix);
  }

  lemma ParseIntToString(n: nat)
    requires n <= MAX_INT
    ensures ParseInt(IntToString(n), 10) == Some(n)
  {
    ParseIntToRadix(n, 10);
  }
}

=== FILE: ordered_map.dfy ===
/** An insertion-ordered map with string keys, the behaviour of Java's
    `LinkedHashMap<String, V>`: entries are kept in the order their keys were
    first inserted, re-putting a key overwrites its value in place, and
    removing a key leaves every other entry where it was. */
module OrderedMap {
  import opened Wrappers
  import Seqs

  type Entries<V> = seq<(string, V)>

  function Keys<V>(m: Entries<V>): (ks: seq<string>)
    ensures |ks| == |m|
    ensures forall i :: 0 <= i < |m| ==> ks[i] == m[i].0
  {
    if |m| == 0 then []
    else
      var rest := Keys(m[1..]);
      assert forall i :: 1 <= i < |m| ==> ([m[0].0] + rest)[i] == m[1..][i - 1].0;
      [m[0].0] + rest
  }

  /** The store invariant: no key occurs twice. */
  predicate UniqueKeys<V>(m: Entries<V>) {
    forall i, j :: 0 <= i < j < |m| ==> m[i].0 != m[j].0
  }

  /** `map.get(k)`: the value of the first entry with key `k`. */
  function Get<V>(m: Entries<V>, k: string): (r: Option<V>)
    ensures r.None? <==> k !in Keys(m)
    ensures r.Some? ==> (k, r.value) in m
  {
    if |m| == 0 then None
    else if m[0].0 == k then Some(m[0].1)
    else
      assert Keys(m) == [m[0].0] + Keys(m[1..]);
      Get(m[1..], k)
  }

  /** `map.put(k, v)`: overwrite in place when `k` is present, append otherwise. */
  function Put<V>(m: Entries<V>, k: string, v: V): (r: Entries<V>)
    ensures Get(r, k) == Some(v)
    ensures forall k' :: k' != k ==> Get(r, k') == Get(m, k')
    ensures k !in Keys(m) ==> r == m + [(k, v)]
    ensures k in Keys(m) ==> Keys(r) == Keys(m)
  {
    if |m| == 0 then [(k, v)]
    else if m[0].0 == k then
      PutHere(m, v);
      [(k, v)] + m[1..]
    else
      var rest := Put(m[1..], k, v);
      PutFurther(m, k, v, rest);
      [m[0]] + rest
  }

  /** `Put` on a store whose first entry holds the key. */
  lemma PutHere<V>(m: Entries<V>, v: V)
    requires |m| > 0
    ensures var k, r := m[0].0, [(m[0].0, v)] + m[1..];
            && Get(r, k) == Some(v)
            && (forall k' :: k' != k ==> Get(r, k') == Get(m, k'))
            && k in Keys(m) && Keys(r) == Keys(m)
  {
    assert m == [m[0]] + m[1..];
    ConsParts(m[0], m[1..]);
    ConsParts((m[0].0, v), m[1..]);
  }

  /** `Put` on a store whose first entry holds another key, given what the
      recursive put did to the rest. */
  lemma PutFurther<V>(m: Entries<V>, k: string, v: V, rest: Entries<V>)
    requires |m| > 0 && m[0].0 != k
    requires Get(rest, k) == Some(v)
    requires forall k' :: k' != k ==> Get(rest, k') == Get(m[1..], k')
    requires k !in Keys(m[1..]) ==> rest == m[1..] + [(k, v)]
    requires k in Keys(m[1..]) ==> Keys(rest) == Keys(m[1..])
    ensures var r := [m[0]] + rest;
            && Get(r, k) == Some(v)
            && (forall k' :: k' != k ==> Get(r, k') == Get(m, k'))
            && (k !in Keys(m) ==> r == m + [(k, v)])
            && (k in Keys(m) ==> Keys(r) == Keys(m))
  {
    assert m == [m[0]] + m[1..];
    ConsParts(m[0], m[1..]);
    ConsParts(m[0], rest);
    if k !in Keys(m) {
      Seqs.Assoc([m[0]], m[1..], [(k, v)]);
    }
  }

  /** Keys and lookups of an entry put in front of others. */
  lemma ConsParts<V>(e: (string, V), t: Entries<V>)
    ensures Keys([e] + t) == [e.0] + Keys(t)
    ensures forall k :: Get([e] + t, k) == if e.0 == k then Some(e.1) else Get(t, k)
  {
    assert ([e] + t)[1..] == t;
  }

  /** Whether keys repeat depends on the key sequence alone. */
  lemma UniqueKeysOfKeys<V>(a: Entries<V>, b: Entries<V>)
    requires Keys(a) == Keys(b) && UniqueKeys(a)
    ensures UniqueKeys(b)
  {
    forall i, j | 0 <= i < j < |b| ensures b[i].0 != b[j].0 {
      assert Keys(a)[i] == a[i].0 && Keys(a)[j] == a[j].0;
    }
  }

  /** `Put` keeps the store invariant. */
  lemma PutUnique<V>(m: Entries<V>, k: string, v: V)
    requires UniqueKeys(m)
    ensures UniqueKeys(Put(m, k, v))
  {
    if k in Keys(m) {
      UniqueKeysOfKeys(m, Put(m, k, v));
    } else {
      var r := Put(m, k, v);
      forall i, j | 0 <= i < j < |r| ensures r[i].0 != r[j].0 {
        if j == |m| { assert Keys(m)[i] == m[i].0; }
      }
    }
  }

  /** `map.remove(k)`. */
  function Remove<V>(m: Entries<V>, k: string): (r: Entries<V>)
    ensures k !in Keys(r)
    ensures k !in Keys(m) ==> r == m
  {
    if |m| == 0 then []
    else
      var rest := Remove(m[1..], k);
      assert Keys(m) == [m[0].0] + Keys(m[1..]);
      if m[0].0 == k then rest
      else
        var r := [m[0]] + rest;
        assert Keys(r) == [m[0].0] + Keys(rest);
        assert k !in Keys(m) ==> r == [m[0]] + m[1..] == m;
        r
  }

  /** Removing `k` changes the lookup of no other key. */
  lemma {:induction false} RemoveGet<V>(m: Entries<V>, k: string, k': string)
    requires k' != k
    ensures Get(Remove(m, k), k') == Get(m, k')
  {
    if |m| > 0 {
      RemoveGet(m[1..], k, k');
      if m[0].0 != k {
        assert ([m[0]] + Remove(m[1..], k))[1..] == Remove(m[1..], k);
      }
    }
  }

  lemma RemoveLookups<V>(m: Entries<V>, k: string)
    ensures forall k' :: k' != k ==> Get(Remove(m, k), k') == Get(m, k')
  {
    forall k' | k' != k ensures Get(Remove(m, k), k') == Get(m, k') {
      RemoveGet(m, k, k');
    }
  }

  /** In a store without repeated keys, removing the key of entry `i` deletes
      exactly that entry: every other entry stays, in the same order. */
  lemma {:induction false} RemoveAtIndex<V>(m: Entries<V>, i: nat)
    requires UniqueKeys(m) && i < |m|
    ensures Remove(m, m[i].0) == m[..i] + m[i + 1..]
    decreases |m|, 1
  {
    if i == 0 {
      TailUnique(m);
      RemoveFirst(m);
    } else {
      RemoveAfterFirst(m, i);
    }
  }

  lemma {:induction false} RemoveAfterFirst<V>(m: Entries<V>, i: nat)
    requires UniqueKeys(m) && 0 < i < |m|
    ensures Remove(m, m[i].0) == m[..i] + m[i + 1..]
    decreases |m|, 0
  {
    TailUnique(m);
    RemoveAtIndex(m[1..], i - 1);
    RemoveLater(m, i);
  }

  /** Removing the first key of a store without repeated keys leaves the tail. */
  lemma RemoveFirst<V>(m: Entries<V>)
    requires |m| > 0 && m[0].0 !in Keys(m[1..])
    ensures Remove(m, m[0].0) == m[..0] + m[1..]
  {
    RemoveHead(m, m[0].0);
    assert m[..0] + m[1..] == m[1..];
  }

  /** Removing a later key keeps the first entry in front of what the tail keeps. */
  lemma RemoveLater<V>(m: Entries<V>, i: nat)
    requires UniqueKeys(m) && 0 < i < |m|
    requires Remove(m[1..], m[1..][i - 1].0) == m[1..][..i - 1] + m[1..][i..]
    ensures Remove(m, m[i].0) == m[..i] + m[i + 1..]
  {
    assert m[1..][i - 1] == m[i];
    assert m[0].0 != m[i].0;
    RemoveHead(m, m[i].0);
    SplitAt(m, i);
  }

  /** The tail of a store without repeated keys has none either, and does not
      hold the head's key. */
  lemma TailUnique<V>(m: Entries<V>)
    requires UniqueKeys(m) && |m| > 0
    ensures UniqueKeys(m[1..])
    ensures m[0].0 !in Keys(m[1..])
  {
    var tail := m[1..];
    forall a, b | 0 <= a < b < |tail| ensures tail[a].0 != tail[b].0 {
      assert tail[a] == m[a + 1] && tail[b] == m[b + 1];
    }
    forall j | 0 <= j < |tail| ensures Keys(tail)[j] != m[0].0 {
      assert tail[j] == m[j + 1];
    }
  }

  /** One step of `Remove`. */
  lemma RemoveHead<V>(m: Entries<V>, k: string)
    requires |m| > 0
    ensures Remove(m, k) == if m[0].0 == k then Remove(m[1..], k) else [m[0]] + Remove(m[1..], k)
  {
  }

  lemma SplitAt<V>(m: Entries<V>, i: nat)
    requires 0 < i < |m|
    ensures [m[0]] + (m[1..][..i - 1] + m[1..][i..]) == m[..i] + m[i + 1..]
  {
    assert m[1..][..i - 1] == m[1..i];
    assert m[1..][i..] == m[i + 1..];
    assert m[..i] == [m[0]] + m[1..i];
  }

  /** `Remove` keeps the store invariant. */
  lemma {:induction false} RemoveUnique<V>(m: Entries<V>, k: string)
    requires UniqueKeys(m)
    ensures UniqueKeys(Remove(m, k))
  {
    if |m| > 0 {
      var rest := Remove(m[1..], k);
      RemoveUnique(m[1..], k);
      if m[0].0 != k {
        assert m[0].0 !in Keys(m[1..]);
        RemoveGet(m[1..], k, m[0].0);
        assert Get(rest, m[0].0).None?;
        var r := [m[0]] + rest;
        forall i, j | 0 <= i < j < |r| ensures r[i].0 != r[j].0 {
          if i == 0 { assert Keys(rest)[j - 1] == r[j].0; }
        }
      }
    }
  }

  /** `putAll`, or a loop of `put` calls: the entries of `es` put in order. */
  function PutAll<V>(m: Entries<V>, es: Entries<V>): (r: Entries<V>)
    ensures Keys(m) <= Keys(r)
    ensures |m| <= |r| <= |m| + |es|
  {
    if |es| == 0 then m
    else
      var init, last := es[..|es| - 1], es[|es| - 1];
      var r0 := PutAll(m, init);
      PutKeys(r0, last.0, last.1);
      Put(r0, last.0, last.1)
  }

  /** `PutAll` keeps the store invariant. */
  lemma {:induction false} PutAllUnique<V>(m: Entries<V>, es: Entries<V>)
    requires UniqueKeys(m)
    ensures UniqueKeys(PutAll(m, es))
  {
    if |es| > 0 {
      PutAllUnique(m, es[..|es| - 1]);
      PutUnique(PutAll(m, es[..|es| - 1]), es[|es| - 1].0, es[|es| - 1].1);
    }
  }

  /** The keys of `ks` not in `seen`, each once, in the order they first occur. */
  function FirstOccurrences(ks: seq<string>, seen: seq<string>): (r: seq<string>)
    ensures forall k :: k in r <==> k in ks && k !in seen
  {
    if |ks| == 0 then []
    else if ks[0] in seen then FirstOccurrences(ks[1..], seen)
    else [ks[0]] + FirstOccurrences(ks[1..], seen + [ks[0]])
  }

  lemma FirstOccurrencesCons(k: string, ks: seq<string>, seen: seq<string>)
    ensures FirstOccurrences([k] + ks, seen) ==
              if k in seen then FirstOccurrences(ks, seen) else [k] + FirstOccurrences(ks, seen + [k])
  {
    assert ([k] + ks)[1..] == ks;
  }

  lemma PutAllSnoc<V>(m: Entries<V>, es: Entries<V>, x: (string, V))
    ensures PutAll(m, es + [x]) == Put(PutAll(m, es), x.0, x.1)
  {
    assert (es + [x])[..|es|] == es;
  }

  /** A run of puts is the first put followed by the rest. */
  lemma {:induction false} PutAllCons<V>(m: Entries<V>, e: (string, V), es: Entries<V>)
    ensures PutAll(m, [e] + es) == PutAll(Put(m, e.0, e.1), es)
    decreases |es|
  {
    if |es| == 0 {
      assert [e] + es == [] + [e];
      PutAllSnoc(m, [], e);
    } else {
      var init, x := es[..|es| - 1], es[|es| - 1];
      Seqs.LastSplit(e, es);
      PutAllCons(m, e, init);
      PutAllSnoc(m, [e] + init, x);
      PutAllSnoc(Put(m, e.0, e.1), init, x);
    }
  }


  /** Key order after a run of puts: the old keys where they were, then each new
      key at the position of its first put. This is the iteration order of a
      `LinkedHashMap` after `putAll`. */
  lemma {:induction false} PutAllKeys<V>(m: Entries<V>, es: Entries<V>)
    ensures Keys(PutAll(m, es)) == Keys(m) + FirstOccurrences(Keys(es), Keys(m))
    decreases |es|
  {
    if |es| == 0 {
      assert Keys(m) + [] == Keys(m);
    } else {
      var e, t := es[0], es[1..];
      assert es == [e] + t;
      PutAllCons(m, e, t);
      var m1 := Put(m, e.0, e.1);
      PutAllKeys(m1, t);
      ConsParts(e, t);
      FirstOccurrencesCons(e.0, Keys(t), Keys(m));
      PutKeys(m, e.0, e.1);
      if e.0 !in Keys(m) {
        Seqs.Assoc(Keys(m), [e.0], FirstOccurrences(Keys(t), Keys(m1)));
      }
    }
  }

  lemma PutKeys<V>(m: Entries<V>, k: string, v: V)
    ensures Keys(Put(m, k, v)) == if k in Keys(m) then Keys(m) else Keys(m) + [k]
  {
    if k !in Keys(m) {
      assert Keys(m + [(k, v)]) == Keys(m) + [k];
    }
  }


  /** Entries whose keys are distinct and not yet in `m`. */
  predicate FreshEntries<V>(m: Entries<V>, es: Entries<V>) {
    UniqueKeys(es) && forall i :: 0 <= i < |es| ==> es[i].0 !in Keys(m)
  }

  /** Putting the first of a run of fresh entries leaves the others fresh. */
  lemma FreshEntriesStep<V>(m: Entries<V>, es: Entries<V>)
    requires |es| > 0 && FreshEntries(m, es)
    ensures Put(m, es[0].0, es[0].1) == m + [es[0]]
    ensures FreshEntries(m + [es[0]], es[1..])
  {
    var m1 := m + [es[0]];
    assert Keys(m1) == Keys(m) + [es[0].0];
    forall i | 0 <= i < |es[1..]| ensures es[1..][i].0 !in Keys(m1) {
      assert es[1..][i] == es[i + 1];
    }
  }

  /** The value the last entry with key `k` carries. */
  function LastValue<V>(es: Entries<V>, k: string): Option<V> {
    if |es| == 0 then None
    else if es[|es| - 1].0 == k then Some(es[|es| - 1].1)
    else LastValue(es[..|es| - 1], k)
  }

  /** After a run of puts, each key holds the value it was put with last, and
      keys the run did not mention keep their old values. */
  lemma {:induction false} PutAllGet<V>(m: Entries<V>, es: Entries<V>, k: string)
    ensures Get(PutAll(m, es), k) == (if LastValue(es, k).Some? then LastValue(es, k) else Get(m, k))
  {
    if |es| > 0 {
      PutAllGet(m, es[..|es| - 1], k);
    }
  }

  lemma PutAllLookups<V>(m: Entries<V>, es: Entries<V>)
    ensures forall k :: Get(PutAll(m, es), k) == (if LastValue(es, k).Some? then LastValue(es, k) else Get(m, k))
  {
    forall k ensures Get(PutAll(m, es), k) == (if LastValue(es, k).Some? then LastValue(es, k) else Get(m, k)) {
      PutAllGet(m, es, k);
    }
  }

  /** Reference model: the Dafny map an entry list denotes (first entry wins). */
  ghost function ToMap<V>(m: Entries<V>): map<string, V> {
    if |m| == 0 then map[] else ToMap(m[1..])[m[0].0 := m[0].1]
  }

  lemma {:induction false} GetIsMapLookup<V>(m: Entries<V>, k: string)
    ensures k in ToMap(m) <==> k in Keys(m)
    ensures Get(m, k) == if k in ToMap(m) then Some(ToMap(m)[k]) else None
  {
    if |m| > 0 {
      assert Keys(m) == [m[0].0] + Keys(m[1..]);
      GetIsMapLookup(m[1..], k);
    }
  }

  /** `Put` is map update on the reference model. */
  lemma PutIsMapUpdate<V>(m: Entries<V>, k: string, v: V)
    ensures ToMap(Put(m, k, v)) == ToMap(m)[k := v]
  {
    var r := Put(m, k, v);
    forall k' ensures (k' in ToMap(r) <==> k' in ToMap(m)[k := v])
                   && (k' in ToMap(r) ==> ToMap(r)[k'] == ToMap(m)[k := v][k']) {
      GetIsMapLookup(r, k');
      GetIsMapLookup(m, k');
    }
  }

  /** `Remove` is key removal on the reference model. */
  lemma RemoveIsMapRemoval<V>(m: Entries<V>, k: string)
    ensures ToMap(Remove(m, k)) == ToMap(m) - {k}
  {
    var r := Remove(m, k);
    forall k' ensures (k' in ToMap(r) <==> k' in ToMap(m) - {k})
                   && (k' in ToMap(r) ==> ToMap(r)[k'] == (ToMap(m) - {k})[k']) {
      GetIsMapLookup(r, k');
      GetIsMapLookup(m, k');
    }
  }
}

=== FILE: parser.dfy ===
/** `readHeaders` and `readBody`: parsing a message from its character
    stream. Header lines run up to the first blank line; the body is framed by
    Content-Length, by chunked transfer coding, or (for HTTP/1.0) by the end of
    the stream, and is then turned into a form according to the media type. */
module Parser {
  import opened Wrappers
  import opened Text
  import opened Numbers
  import OrderedMap
  import Seqs
  import Latin1
  import opened Reader
  import opened HttpMessage
  import opened FormPayload

  const HTTP_1_0: string := "HTTP/1.0"
  const CHUNKED: string := "chunked"

  // ---------------------------------------------------------------- headers

  /** `readHeaders`: each line up to a blank one (or the end of the stream) is
      split at its first colon and stored with `header(name, value)`; a line
      with no colon is an invalid header. Returns the message and the stream
      after the blank line. */
  function ReadHeaders(m: Message, util: HttpUtil, input: seq<char>): (r: Result<(Message, seq<char>), HttpError>)
    ensures r.Success? ==> IsSuffix(r.value.1, input)
    ensures r.Success? ==> r.value.0.body == m.body && r.value.0.form == m.form && r.value.0.httpVersion == m.httpVersion
    ensures r.Success? && Valid(m) ==> Valid(r.value.0)
    ensures r.Failure? ==> r.error.InvalidHeader? && !IsBlank(r.error.line) && ':' !in r.error.line
    decreases |input|
  {
    if |input| == 0 then Success((m, input))
    else
      var line := ReadLine(input).value.0;
      var rest := ReadLine(input).value.1;
      SplitLineRest(input);
      if IsBlank(line) then Success((m, rest))
      else if ':' !in line then Failure(InvalidHeader(line))
      else
        var i := IndexOf(line, ':').value;
        var r := ReadHeaders(SetHeader(m, util, line[..i], line[i + 1..]), util, rest);
        SuffixOfSuffix(r, input, rest);
        r
  }

  predicate IsSuffix(s: seq<char>, whole: seq<char>) {
    |s| <= |whole| && whole[|whole| - |s|..] == s
  }

  lemma SplitLineRest(s: seq<char>)
    requires |s| > 0
    ensures IsSuffix(ReadLine(s).value.1, s)
  {
  }

  lemma SuffixOfSuffix(r: Result<(Message, seq<char>), HttpError>, a: seq<char>, b: seq<char>)
    requires IsSuffix(b, a)
    ensures r.Success? && IsSuffix(r.value.1, b) ==> IsSuffix(r.value.1, a)
  {
    if r.Success? && IsSuffix(r.value.1, b) {
      var c := r.value.1;
      assert a[|a| - |c|..] == a[|a| - |b|..][|b| - |c|..];
    }
  }

  /** A header field as the parser receives it: the name has no colon, and
      neither part has a line break. */
  predicate WellFormedField(field: (string, string)) {
    ':' !in field.0 && NoLineBreak(field.0) && NoLineBreak(field.1)
  }

  /** The header lines of `fields`, each as `name:value` with a CRLF. */
  function RenderFields(fields: seq<(string, string)>): string {
    if |fields| == 0 then ""
    else fields[0].0 + ":" + fields[0].1 + CRLF + RenderFields(fields[1..])
  }

  /** The reference meaning of a header block: `header(name, value)` for each
      field in order. */
  function ApplyFields(m: Message, util: HttpUtil, fields: seq<(string, string)>): Message
    decreases |fields|
  {
    if |fields| == 0 then m
    else ApplyFields(SetHeader(m, util, fields[0].0, fields[0].1), util, fields[1..])
  }

  /** One header line: no line break, not blank, and its first colon sits
      right after the name. */
  lemma FieldLine(field: (string, string))
    requires WellFormedField(field)
    ensures var line := field.0 + ":" + field.1;
            && NoLineBreak(line) && !IsBlank(line)
            && IndexOf(line, ':') == Some(|field.0|)
            && line[..|field.0|] == field.0 && line[|field.0| + 1..] == field.1
  {
    var line := field.0 + ":" + field.1;
    assert line[|field.0|] == ':';
    assert forall j :: 0 <= j < |line| ==> line[j] != '\r' && line[j] != '\n' by {
      forall j | 0 <= j < |line| ensures line[j] != '\r' && line[j] != '\n' {
        if j < |field.0| { assert line[j] == field.0[j]; }
        else if j > |field.0| { assert line[j] == field.1[j - |field.0| - 1]; }
      }
    }
  }

  /** Reading one header line stores its field and goes on after the line. */
  lemma ReadFieldStep(m: Message, util: HttpUtil, field: (string, string), after: seq<char>)
    requires WellFormedField(field)
    ensures ReadHeaders(m, util, field.0 + ":" + field.1 + CRLF + after) ==
              ReadHeaders(SetHeader(m, util, field.0, field.1), util, after)
  {
    FieldLineRead(field, after);
    ReadLineStep(m, util, field.0, field.1, after);
  }

  lemma FieldLineRead(field: (string, string), after: seq<char>)
    requires WellFormedField(field)
    ensures var line := field.0 + ":" + field.1;
            && ReadLine(line + CRLF + after) == Some((line, after)) && !IsBlank(line)
            && IndexOf(line, ':') == Some(|field.0|)
            && line[..|field.0|] == field.0 && line[|field.0| + 1..] == field.1
  {
    FieldLine(field);
    ReadLineCRLF(field.0 + ":" + field.1, after);
  }

  lemma ReadLineStep(m: Message, util: HttpUtil, name: string, value: string, after: seq<char>)
    requires var line := name + ":" + value;
             && ReadLine(line + CRLF + after) == Some((line, after)) && !IsBlank(line)
             && IndexOf(line, ':') == Some(|name|)
             && line[..|name|] == name && line[|name| + 1..] == value
    ensures ReadHeaders(m, util, name + ":" + value + CRLF + after) ==
              ReadHeaders(SetHeader(m, util, name, value), util, after)
  {
  }

  /** Reading a rendered header block applies its fields in order and stops
      right after the blank line. */
  lemma {:induction false} ReadRenderedFields(m: Message, util: HttpUtil, fields: seq<(string, string)>, rest: seq<char>)
    requires forall i :: 0 <= i < |fields| ==> WellFormedField(fields[i])
    ensures ReadHeaders(m, util, RenderFields(fields) + (CRLF + rest)) == Success((ApplyFields(m, util, fields), rest))
    decreases |fields|
  {
    if |fields| == 0 {
      RenderNone(fields, CRLF + rest);
      ReadLineCRLF([], rest);
    } else {
      ReadRenderedFields(SetHeader(m, util, fields[0].0, fields[0].1), util, fields[1..], rest);
      ReadRenderedStep(m, util, fields, rest);
    }
  }

  lemma ReadRenderedStep(m: Message, util: HttpUtil, fields: seq<(string, string)>, rest: seq<char>)
    requires |fields| > 0 && WellFormedField(fields[0])
    requires ReadHeaders(SetHeader(m, util, fields[0].0, fields[0].1), util, RenderFields(fields[1..]) + (CRLF + rest)) ==
               Success((ApplyFields(SetHeader(m, util, fields[0].0, fields[0].1), util, fields[1..]), rest))
    ensures ReadHeaders(m, util, RenderFields(fields) + (CRLF + rest)) == Success((ApplyFields(m, util, fields), rest))
  {
    RenderFirst(fields, CRLF + rest);
    ReadFieldStep(m, util, fields[0], RenderFields(fields[1..]) + (CRLF + rest));
  }

  /** A line without a colon after well-formed fields aborts the parse with
      that line. */
  lemma {:induction false} ReadInvalidLine(m: Message, util: HttpUtil, fields: seq<(string, string)>, bad: string, rest: seq<char>)
    requires forall i :: 0 <= i < |fields| ==> WellFormedField(fields[i])
    requires NoLineBreak(bad) && !IsBlank(bad) && ':' !in bad
    ensures ReadHeaders(m, util, RenderFields(fields) + (bad + CRLF + rest)) == Failure(InvalidHeader(bad))
    decreases |fields|
  {
    if |fields| == 0 {
      RenderNone(fields, bad + CRLF + rest);
      InvalidFirst(m, util, bad, rest);
    } else {
      ReadInvalidLine(SetHeader(m, util, fields[0].0, fields[0].1), util, fields[1..], bad, rest);
      ReadInvalidLineStep(m, util, fields, bad, rest);
    }
  }

  lemma ReadInvalidLineStep(m: Message, util: HttpUtil, fields: seq<(string, string)>, bad: string, rest: seq<char>)
    requires |fields| > 0 && WellFormedField(fields[0])
    requires ReadHeaders(SetHeader(m, util, fields[0].0, fields[0].1), util, RenderFields(fields[1..]) + (bad + CRLF + rest)) ==
               Failure(InvalidHeader(bad))
    ensures ReadHeaders(m, util, RenderFields(fields) + (bad + CRLF + rest)) == Failure(InvalidHeader(bad))
  {
    ReadInvalidStep(m, util, fields, bad + CRLF + rest);
  }

  lemma InvalidFirst(m: Message, util: HttpUtil, bad: string, rest: seq<char>)
    requires NoLineBreak(bad) && !IsBlank(bad) && ':' !in bad
    ensures ReadHeaders(m, util, bad + CRLF + rest) == Failure(InvalidHeader(bad))
  {
    ReadLineCRLF(bad, rest);
  }

  lemma ReadInvalidStep(m: Message, util: HttpUtil, fields: seq<(string, string)>, tail: seq<char>)
    requires |fields| > 0 && WellFormedField(fields[0])
    ensures ReadHeaders(m, util, RenderFields(fields) + tail) ==
              ReadHeaders(SetHeader(m, util, fields[0].0, fields[0].1), util, RenderFields(fields[1..]) + tail)
  {
    RenderFirst(fields, tail);
    ReadFieldStep(m, util, fields[0], RenderFields(fields[1..]) + tail);
  }

  /** A header block with no blank line after it: end of stream ends the
      headers, and the message holds every field, applied in order. */
  lemma {:induction false} ReadFieldsToEnd(m: Message, util: HttpUtil, fields: seq<(string, string)>)
    requires forall i :: 0 <= i < |fields| ==> WellFormedField(fields[i])
    ensures ReadHeaders(m, util, RenderFields(fields)) == Success((ApplyFields(m, util, fields), []))
    decreases |fields|
  {
    if |fields| == 0 {
      RenderNone(fields, []);
    } else {
      var m1 := SetHeader(m, util, fields[0].0, fields[0].1);
      ReadInvalidStep(m, util, fields, []);
      Seqs.RightUnit(RenderFields(fields));
      Seqs.RightUnit(RenderFields(fields[1..]));
      assert forall i :: 0 <= i < |fields[1..]| ==> WellFormedField(fields[1..][i]) by {
        forall i | 0 <= i < |fields[1..]| ensures WellFormedField(fields[1..][i]) {
          assert fields[1..][i] == fields[i + 1];
        }
      }
      ReadFieldsToEnd(m1, util, fields[1..]);
    }
  }

  lemma RenderNone(fields: seq<(string, string)>, tail: seq<char>)
    requires |fields| == 0
    ensures RenderFields(fields) + tail == tail
  {
  }

  lemma RenderFirst(fields: seq<(string, string)>, tail: seq<char>)
    requires |fields| > 0
    ensures RenderFields(fields) + tail == fields[0].0 + ":" + fields[0].1 + CRLF + (RenderFields(fields[1..]) + tail)
  {
  }

  /** Applying fields whose names are new, normalized and distinct, with
      trimmed values, appends them to the store in order. */
  lemma {:induction false} ApplyFreshFields(m: Message, util: HttpUtil, fields: seq<(string, string)>)
    requires OrderedMap.FreshEntries(m.headers, fields) && NormalFields(fields)
    ensures ApplyFields(m, util, fields).headers == m.headers + fields
    decreases |fields|
  {
    if |fields| > 0 {
      var m1 := SetHeader(m, util, fields[0].0, fields[0].1);
      SetFreshField(m, util, fields);
      NormalFieldsTail(fields);
      ApplyFreshFields(m1, util, fields[1..]);
      ApplyFreshStep(m, util, fields);
    }
  }

  /** Fields as the store holds them: normalized names and trimmed values. */
  predicate NormalFields(fields: seq<(string, string)>) {
    forall i :: 0 <= i < |fields| ==> NormalizeName(fields[i].0) == fields[i].0 && Trim(fields[i].1) == fields[i].1
  }

  lemma ApplyFreshStep(m: Message, util: HttpUtil, fields: seq<(string, string)>)
    requires |fields| > 0
    requires SetHeader(m, util, fields[0].0, fields[0].1).headers == m.headers + [fields[0]]
    requires ApplyFields(SetHeader(m, util, fields[0].0, fields[0].1), util, fields[1..]).headers ==
               SetHeader(m, util, fields[0].0, fields[0].1).headers + fields[1..]
    ensures ApplyFields(m, util, fields).headers == m.headers + fields
  {
    AppendFirst(m.headers, fields);
  }

  lemma AppendFirst(h: Headers, fields: seq<(string, string)>)
    requires |fields| > 0
    ensures h + [fields[0]] + fields[1..] == h + fields
  {
  }

  lemma SetFreshField(m: Message, util: HttpUtil, fields: seq<(string, string)>)
    requires |fields| > 0 && OrderedMap.FreshEntries(m.headers, fields) && NormalFields(fields)
    ensures SetHeader(m, util, fields[0].0, fields[0].1).headers == m.headers + [fields[0]]
    ensures OrderedMap.FreshEntries(SetHeader(m, util, fields[0].0, fields[0].1).headers, fields[1..])
  {
    assert fields[0].0 !in OrderedMap.Keys(m.headers);
    OrderedMap.FreshEntriesStep(m.headers, fields);
  }

  lemma NormalFieldsTail(fields: seq<(string, string)>)
    requires |fields| > 0 && NormalFields(fields)
    ensures NormalFields(fields[1..])
  {
    forall i | 0 <= i < |fields| - 1
      ensures NormalizeName(fields[1..][i].0) == fields[1..][i].0 && Trim(fields[1..][i].1) == fields[1..][i].1
    {
      assert fields[1..][i] == fields[i + 1];
    }
  }

  /** Writing out a header store and reading it into a message with no
      headers restores the store, order included. */
  lemma HeadersRoundTrip(m: Message, util: HttpUtil, h: Headers, rest: seq<char>)
    requires m.headers == [] && HeadersValid(h)
    requires forall i :: 0 <= i < |h| ==> WellFormedField(h[i]) && Trim(h[i].1) == h[i].1
    ensures ReadHeaders(m, util, RenderFields(h) + (CRLF + rest)).Success?
    ensures ReadHeaders(m, util, RenderFields(h) + (CRLF + rest)).value.0.headers == h
    ensures ReadHeaders(m, util, RenderFields(h) + (CRLF + rest)).value.1 == rest
  {
    ReadRenderedFields(m, util, h, rest);
    forall i | 0 <= i < |h| ensures NormalizeName(h[i].0) == h[i].0 {
      assert OrderedMap.Keys(h)[i] == h[i].0;
    }
    ApplyFreshFields(m, util, h);
  }

  // ---------------------------------------------------------------- chunked

  /** The chunked loop of `readBody`: a size line in hex, that many chars, and
      the rest of that line, until a blank line or the end of the stream. A
      size of zero is skipped rather than ending the body; a size line that is
      not a hex number raises a number-format error. */
  function ReadChunks(s: seq<char>): (r: Result<string, HttpError>)
    ensures r.Success? ==> |r.value| <= |s|
    ensures r.Failure? ==> r.error.NumberFormat? && !IsBlank(r.error.input) && NoLineBreak(r.error.input)
                           && ParseInt(r.error.input, 16).None?
    decreases |s|
  {
    match ReadLine(s)
    case None => Success([])
    case Some((line, rest)) =>
      if IsBlank(line) then Success([])
      else
        match ParseInt(line, 16)
        case None => Failure(NumberFormat(line))
        case Some(n) =>
          if n == 0 then ReadChunks(rest)
          else
            var data := Take(rest, n);
            var after := Drop(rest, n);
            var next := match ReadLine(after) case None => after case Some((_, r)) => r;
            var more :- ReadChunks(next);
            Success(data + more)
  }

  /** The payload of a chunked body. */
  function Concat(chunks: seq<string>): string {
    if |chunks| == 0 then [] else chunks[0] + Concat(chunks[1..])
  }

  /** The last chunk and the empty trailer. */
  const LAST_CHUNK: string := "0" + CRLF + CRLF

  /** Chunked transfer coding as section 4.1 of RFC 7230 describes it, with
      no extensions and no trailer: each chunk's size in hex, CRLF, the data,
      CRLF, then the last chunk. */
  function ChunkedEncode(chunks: seq<string>): (r: string)
    requires forall i :: 0 <= i < |chunks| ==> 0 < |chunks[i]| <= MAX_INT
  {
    if |chunks| == 0 then LAST_CHUNK
    else ToRadix(|chunks[0]|, 16) + CRLF + chunks[0] + CRLF + ChunkedEncode(chunks[1..])
  }

  /** The data chunks of `ChunkedEncode` without the last chunk. */
  function ChunkBlocks(chunks: seq<string>): (r: string)
    requires forall i :: 0 <= i < |chunks| ==> 0 < |chunks[i]| <= MAX_INT
    ensures ChunkedEncode(chunks) == r + LAST_CHUNK
    decreases |chunks|
  {
    if |chunks| == 0 then ""
    else
      var rest := ChunkBlocks(chunks[1..]);
      var head := ToRadix(|chunks[0]|, 16) + CRLF + chunks[0] + CRLF;
      Seqs.Assoc(head, rest, LAST_CHUNK);
      head + rest
  }

  /** The zero-size line is skipped: decoding goes on with the next line. */
  lemma ZeroChunkSkipped(s: seq<char>)
    ensures ReadChunks("0" + CRLF + s) == ReadChunks(s)
  {
    ReadLineCRLF("0", s);
    ParseIntToRadix(0, 16);
    assert ToRadix(0, 16) == "0";
  }

  /** Consequence of the skip: a trailer field after the last chunk is read
      as a size line and rejected, where section 4.1.2 of RFC 7230 allows it. */
  lemma TrailerRejected(line: string, s: seq<char>)
    requires NoLineBreak(line) && !IsBlank(line) && ParseInt(line, 16).None?
    ensures ReadChunks("0" + CRLF + (line + CRLF + s)) == Failure(NumberFormat(line))
  {
    ZeroChunkSkipped(line + CRLF + s);
    BadSizeLine(line, s);
  }

  /** A size line that is not a hex number is a number-format error. */
  lemma BadSizeLine(line: string, s: seq<char>)
    requires NoLineBreak(line) && !IsBlank(line) && ParseInt(line, 16).None?
    ensures ReadChunks(line + CRLF + s) == Failure(NumberFormat(line))
  {
    ReadLineCRLF(line, s);
  }

  lemma ChunkStep(c: string, tail: seq<char>)
    requires 0 < |c| <= MAX_INT
    ensures ReadChunks(ToRadix(|c|, 16) + CRLF + c + CRLF + tail) ==
              (match ReadChunks(tail) case Failure(e) => Failure(e) case Success(more) => Success(c + more))
  {
    var size := ToRadix(|c|, 16);
    var body := c + CRLF + tail;
    ChunkFrame(c, tail);
    ReadChunkStep(size + CRLF + body, size, |c|, body, tail);
  }

  /** The text facts about one encoded chunk: its size line, its data, and
      the line break after the data. */
  lemma ChunkFrame(c: string, tail: seq<char>)
    requires 0 < |c| <= MAX_INT
    ensures var size := ToRadix(|c|, 16);
            var body := c + CRLF + tail;
            && size + CRLF + c + CRLF + tail == size + CRLF + body
            && ReadLine(size + CRLF + body) == Some((size, body))
            && !IsBlank(size) && ParseInt(size, 16) == Some(|c|)
            && Take(body, |c|) == c
            && ReadLine(Drop(body, |c|)) == Some(([], tail))
  {
    SizeLine(|c|, c + CRLF + tail);
    ChunkData(c, tail);
    var x := ToRadix(|c|, 16) + CRLF;
    Seqs.Assoc(x + c, CRLF, tail);
    Seqs.Assoc(x, c, CRLF + tail);
    Seqs.Assoc(c, CRLF, tail);
  }


  lemma SizeLine(n: nat, body: seq<char>)
    requires 0 < n <= MAX_INT
    ensures ReadLine(ToRadix(n, 16) + CRLF + body) == Some((ToRadix(n, 16), body))
    ensures !IsBlank(ToRadix(n, 16)) && ParseInt(ToRadix(n, 16), 16) == Some(n)
  {
    var size := ToRadix(n, 16);
    ReadLineCRLF(size, body);
    ParseIntToRadix(n, 16);
    assert !IsWhite(size[0]);
  }

  lemma ChunkData(c: string, tail: seq<char>)
    ensures Take(c + CRLF + tail, |c|) == c
    ensures ReadLine(Drop(c + CRLF + tail, |c|)) == Some(([], tail))
  {
    var body := c + CRLF + tail;
    assert Take(body, |c|) == c;
    assert Drop(body, |c|) == [] + CRLF + tail by {
      assert Take(body, |c|) + Drop(body, |c|) == c + (CRLF + tail);
    }
    ReadLineCRLF([], tail);
  }

  /** One non-zero chunk: its data, then the chunks after its line break. */
  lemma ReadChunkStep(input: seq<char>, size: string, n: nat, body: seq<char>, tail: seq<char>)
    requires ReadLine(input) == Some((size, body)) && !IsBlank(size) && ParseInt(size, 16) == Some(n) && n > 0
    requires ReadLine(Drop(body, n)).Some? && ReadLine(Drop(body, n)).value.1 == tail
    ensures ReadChunks(input) ==
              (match ReadChunks(tail) case Failure(e) => Failure(e) case Success(more) => Success(Take(body, n) + more))
  {
  }

  /** The last chunk and its empty trailer end the body. */
  lemma LastChunk(tail: seq<char>)
    ensures ReadChunks(LAST_CHUNK + tail) == Success([])
  {
    assert LAST_CHUNK + tail == "0" + CRLF + (CRLF + tail);
    ZeroChunkSkipped(CRLF + tail);
    assert CRLF + tail == [] + CRLF + tail;
    ReadLineCRLF([], tail);
  }

  /** Decoding inverts encoding: the chunks come back concatenated, whatever
      follows the last chunk. */
  lemma {:induction false} ChunkedRoundTrip(chunks: seq<string>, tail: seq<char>)
    requires forall i :: 0 <= i < |chunks| ==> 0 < |chunks[i]| <= MAX_INT
    ensures ReadChunks(ChunkedEncode(chunks) + tail) == Success(Concat(chunks))
    decreases |chunks|
  {
    if |chunks| == 0 {
      LastChunk(tail);
    } else {
      ChunkedRoundTrip(chunks[1..], tail);
      ChunkedRoundTripStep(chunks, tail);
    }
  }

  /** Chunks cut off before the last chunk still decode to their payload:
      the loop also stops at the end of the stream. */
  lemma {:induction false} ChunkedToEnd(chunks: seq<string>)
    requires forall i :: 0 <= i < |chunks| ==> 0 < |chunks[i]| <= MAX_INT
    ensures ReadChunks(ChunkBlocks(chunks)) == Success(Concat(chunks))
    decreases |chunks|
  {
    if |chunks| > 0 {
      var c := chunks[0];
      var later := ChunkBlocks(chunks[1..]);
      ChunkedToEnd(chunks[1..]);
      assert ChunkBlocks(chunks) == ToRadix(|c|, 16) + CRLF + c + CRLF + later;
      ChunkStep(c, later);
    }
  }

  /** The worked example of chunked coding: two chunks and the last chunk. */
  lemma WikipediaChunks()
    ensures ReadChunks("4" + CRLF + "Wiki" + CRLF + "5" + CRLF + "pedia" + CRLF + "0" + CRLF + CRLF) == Success("Wikipedia")
  {
    var chunks := ["Wiki", "pedia"];
    WikipediaEncoded();
    ChunkedRoundTrip(chunks, []);
    assert ChunkedEncode(chunks) + [] == ChunkedEncode(chunks);
    WikipediaConcat();
  }

  lemma WikipediaEncoded()
    ensures ChunkedEncode(["Wiki", "pedia"]) == "4" + CRLF + "Wiki" + CRLF + "5" + CRLF + "pedia" + CRLF + "0" + CRLF + CRLF
  {
    var chunks := ["Wiki", "pedia"];
    assert ToRadix(4, 16) == "4";
    assert ToRadix(5, 16) == "5";
    assert chunks[1..] == ["pedia"];
    assert ["pedia"][1..] == [];
    var last := ChunkedEncode(["pedia"]);
    assert last == "5" + CRLF + "pedia" + CRLF + LAST_CHUNK;
    assert ChunkedEncode(chunks) == "4" + CRLF + "Wiki" + CRLF + last;
  }

  lemma WikipediaConcat()
    ensures Concat(["Wiki", "pedia"]) == "Wikipedia"
  {
    var chunks := ["Wiki", "pedia"];
    assert chunks[1..] == ["pedia"];
    assert ["pedia"][1..] == [];
  }

  lemma ChunkedRoundTripStep(chunks: seq<string>, tail: seq<char>)
    requires |chunks| > 0 && forall i :: 0 <= i < |chunks| ==> 0 < |chunks[i]| <= MAX_INT
    requires ReadChunks(ChunkedEncode(chunks[1..]) + tail) == Success(Concat(chunks[1..]))
    ensures ReadChunks(ChunkedEncode(chunks) + tail) == Success(Concat(chunks))
  {
    var c := chunks[0];
    var later := ChunkedEncode(chunks[1..]) + tail;
    assert ChunkedEncode(chunks) + tail == ToRadix(|c|, 16) + CRLF + c + CRLF + later;
    ChunkStep(c, later);
  }

  // ---------------------------------------------------------------- body

  /** Whether Transfer-Encoding is present and says "chunked" in any case. */
  function IsChunked(m: Message): (r: bool)
    ensures r ==> GetHeader(m, HEADER_TRANSFER_ENCODING).Some? && |GetHeader(m, HEADER_TRANSFER_ENCODING).value| == |CHUNKED|
    ensures GetHeader(m, HEADER_TRANSFER_ENCODING) == Some(CHUNKED) ==> r
  {
    ToLowerOfLower(CHUNKED);
    GetHeader(m, HEADER_TRANSFER_ENCODING).Some? && EqualsIgnoreCase(GetHeader(m, HEADER_TRANSFER_ENCODING).value, CHUNKED)
  }

  /** The media type as `readBody` compares it: lower-cased, empty when unset. */
  function MediaKey(m: Message): (r: string)
    ensures m.mediaType.None? ==> r == ""
    ensures |r| == |m.mediaType.GetOr("")|
    ensures forall i :: 0 <= i < |r| ==> !IsUpper(r[i])
    ensures EqualsIgnoreCase(r, m.mediaType.GetOr(""))
  {
    ToLowerIdempotent(m.mediaType.GetOr(""));
    ToLower(m.mediaType.GetOr(""))
  }

  /** The framing half of `readBody`: the Content-Length prefix when the
      header is present, replaced by the chunked decoding of what follows it
      when Transfer-Encoding is chunked; with neither, the rest of the stream
      for HTTP/1.0 and no body otherwise (`None`). */
  function BodyText(m: Message, input: seq<char>): (r: Result<Option<string>, HttpError>)
    ensures GetHeader(m, HEADER_CONTENT_LENGTH).Some? && ParseInt(GetHeader(m, HEADER_CONTENT_LENGTH).value, 10).None? ==>
              r == Failure(NumberFormat(GetHeader(m, HEADER_CONTENT_LENGTH).value))
    ensures r.Failure? ==> r.error.NumberFormat?
    ensures r.Success? && r.value.Some? ==> |r.value.value| <= |input|
    ensures r == Success(None) <==>
              GetHeader(m, HEADER_CONTENT_LENGTH).None? && !IsChunked(m) && m.httpVersion != HTTP_1_0
  {
    var contentLength := GetHeader(m, HEADER_CONTENT_LENGTH);
    if contentLength.Some? && ParseInt(contentLength.value, 10).None? then
      Failure(NumberFormat(contentLength.value))
    else
      var n := if contentLength.Some? then ParseInt(contentLength.value, 10).value else 0;
      var sized := if contentLength.Some? then Some(Take(input, n)) else None;
      var after := if contentLength.Some? then Drop(input, n) else input;
      assert |after| <= |input| by { assert Take(input, n) + Drop(input, n) == input; }
      if IsChunked(m) then
        var decoded :- ReadChunks(after);
        Success(Some(decoded))
      else if sized.Some? then Success(sized)
      else if m.httpVersion == HTTP_1_0 then Success(Some(input))
      else Success(None)
  }

  /** The parsing half of `readBody`: store the text as the body, then derive
      the form from it by media type: query parameters for urlencoded, the
      multipart parser's parameters for multipart/form-data (on the text's
      wire bytes, in the declared charset or ISO-8859-1), and no form
      otherwise. */
  function ParseBody(m: Message, util: HttpUtil, text: string): (r: Result<Message, HttpError>)
    ensures r.Success? ==> r.value == m.(body := Some(text), form := r.value.form)
    ensures r.Failure? <==> MediaKey(m) == MULTIPART_FORM_DATA &&
                            util.parseMultipart(Latin1.Encode(text), m.charset.GetOr(ISO_8859_1)).None?
    ensures r.Failure? ==> r.error == MultipartParse
    ensures MediaKey(m) == URLENCODED ==> r.Success? && r.value.form == Some(util.parseQuery(text))
    ensures MediaKey(m) != URLENCODED && MediaKey(m) != MULTIPART_FORM_DATA ==> r.Success? && r.value.form.None?
    ensures MediaKey(m) == MULTIPART_FORM_DATA && r.Success? ==>
              r.value.form == util.parseMultipart(Latin1.Encode(text), m.charset.GetOr(ISO_8859_1))
  {
    var withBody := m.(body := Some(text));
    var media := MediaKey(m);
    if media == URLENCODED then Success(withBody.(form := Some(util.parseQuery(text))))
    else if media == MULTIPART_FORM_DATA then
      match util.parseMultipart(Latin1.Encode(text), m.charset.GetOr(ISO_8859_1))
      case None => Failure(MultipartParse)
      case Some(parts) => Success(withBody.(form := Some(parts)))
    else Success(withBody.(form := None))
  }

  /** `readBody`: frame the body, then parse it. Only the body and the form
      change; with no framing the body is cleared and the form kept. */
  function ReadBody(m: Message, util: HttpUtil, input: seq<char>): (r: Result<Message, HttpError>)
    ensures r.Success? ==> r.value == m.(body := r.value.body, form := r.value.form)
    ensures r.Success? && r.value.body.Some? ==> |r.value.body.value| <= |input|
    ensures r.Success? && r.value.body.None? <==>
              GetHeader(m, HEADER_CONTENT_LENGTH).None? && !IsChunked(m) && m.httpVersion != HTTP_1_0
    ensures r.Success? && r.value.body.None? ==> r.value.form == m.form
    ensures r.Failure? ==> r.error.NumberFormat? || r.error == MultipartParse
  {
    var text :- BodyText(m, input);
    if text.None? then Success(m.(body := None))
    else ParseBody(m, util, text.value)
  }

  /** With a Content-Length that states the text's length and no chunked
      coding, the body is exactly that text, whatever follows it. */
  lemma ReadFramed(m: Message, util: HttpUtil, text: string, extra: seq<char>)
    requires GetHeader(m, HEADER_CONTENT_LENGTH) == Some(IntToString(|text|)) && |text| <= MAX_INT && !IsChunked(m)
    ensures ReadBody(m, util, text + extra) == ParseBody(m, util, text)
  {
    ParseIntToString(|text|);
    assert Take(text + extra, |text|) == text;
    assert BodyText(m, text + extra) == Success(Some(text));
  }

  /** A body written with `body(text)` reads back from a stream that starts
      with it, whatever follows: Content-Length frames exactly the text. */
  lemma BodyRoundTrip(m: Message, util: HttpUtil, text: string, extra: seq<char>)
    requires |text| <= MAX_INT && !IsChunked(m) && MediaKey(m) != MULTIPART_FORM_DATA
    ensures ReadBody(SetBody(m, text), util, text + extra).Success?
    ensures ReadBody(SetBody(m, text), util, text + extra).value.body == Some(text)
  {
    var m1 := SetBody(m, text);
    DistinctHeaderNames();
    assert GetHeader(m1, HEADER_TRANSFER_ENCODING) == GetHeader(m, HEADER_TRANSFER_ENCODING);
    assert MediaKey(m1) == MediaKey(m);
    ReadFramed(m1, util, text, extra);
  }

  lemma UrlencodedIsLower()
    ensures ToLower(URLENCODED) == URLENCODED
  {
    ToLowerOfLower(URLENCODED);
  }

  /** A multipart body framed by its Content-Length goes to the multipart
      parser, which decides the outcome. */
  lemma FramedMultipart(m: Message, util: HttpUtil, payload: string, extra: seq<char>)
    requires GetHeader(m, HEADER_CONTENT_LENGTH) == Some(IntToString(|payload|)) && |payload| <= MAX_INT && !IsChunked(m)
    requires m.mediaType == Some(MULTIPART_FORM_DATA)
    ensures ReadBody(m, util, payload + extra) == ParseBody(m, util, payload)
    ensures ParseBody(m, util, payload).Success? <==>
              util.parseMultipart(Latin1.Encode(payload), m.charset.GetOr(ISO_8859_1)).Some?
  {
    MultipartIsLower();
    ReadFramed(m, util, payload, extra);
  }

  lemma MultipartIsLower()
    ensures ToLower(MULTIPART_FORM_DATA) == MULTIPART_FORM_DATA
  {
    ToLowerOfLower(MULTIPART_FORM_DATA);
  }

  /** A urlencoded form written by `formString()` reads back as the parse of
      its query string; when query parsing inverts query building for the
      form, the form itself comes back. */
  lemma UrlencodedRoundTrip(m: Message, util: HttpUtil, f: Form, extra: seq<char>)
    requires !IsChunked(m) && |UrlencodedForm(m, util, f).1| <= MAX_INT
    ensures ReadBody(UrlencodedForm(m, util, f).0, util, UrlencodedForm(m, util, f).1 + extra) ==
              Success(UrlencodedForm(m, util, f).0.(body := Some(UrlencodedForm(m, util, f).1),
                                                     form := Some(util.parseQuery(UrlencodedForm(m, util, f).1))))
    ensures util.parseQuery(util.buildQuery(f, m.charset.GetOr(m.formEncoding))) == f ==>
              ReadBody(UrlencodedForm(m, util, f).0, util, UrlencodedForm(m, util, f).1 + extra).value.form == Some(f)
  {
    var m1 := UrlencodedForm(m, util, f).0;
    var query := UrlencodedForm(m, util, f).1;
    DistinctHeaderNames();
    UrlencodedIsLower();
    assert GetHeader(m1, HEADER_TRANSFER_ENCODING) == GetHeader(m, HEADER_TRANSFER_ENCODING);
    assert MediaKey(m1) == URLENCODED;
    ReadFramed(m1, util, query, extra);
  }

  /** A multipart payload sent with the headers `formString()` sets for it
      reads back through the multipart parser, given that Content-Type
      parsing recovers the multipart media type from the header written. */
  lemma MultipartRoundTrip(m: Message, util: HttpUtil, token: string, payload: string, extra: seq<char>)
    requires IsBoundaryToken(token) && !IsChunked(m) && |payload| <= MAX_INT
    requires util.extractMediaType(MultipartContentType(token)) == Some(MULTIPART_FORM_DATA)
    ensures ReadBody(MultipartHeaders(m, util, token, payload), util, payload + extra) ==
              ParseBody(MultipartHeaders(m, util, token, payload), util, payload)
    ensures ParseBody(MultipartHeaders(m, util, token, payload), util, payload).Success? <==>
              util.parseMultipart(Latin1.Encode(payload),
                                  util.extractContentTypeCharset(MultipartContentType(token)).GetOr(ISO_8859_1)).Some?
  {
    var m1 := MultipartHeaders(m, util, token, payload);
    DistinctHeaderNames();
    assert GetHeader(m1, HEADER_TRANSFER_ENCODING) == GetHeader(m, HEADER_TRANSFER_ENCODING);
    var charset := util.extractContentTypeCharset(MultipartContentType(token));
    assert m1.charset == charset;
    FramedMultipart(m1, util, payload, extra);
  }

  /** A framed body text is parsed as the body; outside multipart/form-data
      parsing cannot fail, so the text becomes the body. */
  lemma FramedText(m: Message, util: HttpUtil, input: seq<char>, text: string)
    requires BodyText(m, input) == Success(Some(text)) && MediaKey(m) != MULTIPART_FORM_DATA
    ensures ReadBody(m, util, input).Success?
    ensures ReadBody(m, util, input).value.body == Some(text)
  {
  }

  /** A chunked body without Content-Length reads back as its chunks'
      concatenation. */
  lemma ChunkedBody(m: Message, util: HttpUtil, chunks: seq<string>, tail: seq<char>)
    requires forall i :: 0 <= i < |chunks| ==> 0 < |chunks[i]| <= MAX_INT
    requires GetHeader(m, HEADER_CONTENT_LENGTH).None? && IsChunked(m) && MediaKey(m) != MULTIPART_FORM_DATA
    ensures ReadBody(m, util, ChunkedEncode(chunks) + tail).Success?
    ensures ReadBody(m, util, ChunkedEncode(chunks) + tail).value.body == Some(Concat(chunks))
  {
    ChunkedText(m, chunks, tail);
    FramedText(m, util, ChunkedEncode(chunks) + tail, Concat(chunks));
  }

  lemma ChunkedText(m: Message, chunks: seq<string>, tail: seq<char>)
    requires forall i :: 0 <= i < |chunks| ==> 0 < |chunks[i]| <= MAX_INT
    requires GetHeader(m, HEADER_CONTENT_LENGTH).None? && IsChunked(m)
    ensures BodyText(m, ChunkedEncode(chunks) + tail) == Success(Some(Concat(chunks)))
  {
    ChunkedRoundTrip(chunks, tail);
  }

  /** Transfer-Encoding wins over Content-Length: the chunked decoder reads
      the stream after the Content-Length prefix, and its result is the body. */
  lemma ChunkedAfterLength(m: Message, util: HttpUtil, chunks: seq<string>, prefix: string, tail: seq<char>)
    requires forall i :: 0 <= i < |chunks| ==> 0 < |chunks[i]| <= MAX_INT
    requires GetHeader(m, HEADER_CONTENT_LENGTH).Some? && ParseInt(GetHeader(m, HEADER_CONTENT_LENGTH).value, 10) == Some(|prefix|)
    requires IsChunked(m) && MediaKey(m) != MULTIPART_FORM_DATA
    ensures ReadBody(m, util, prefix + (ChunkedEncode(chunks) + tail)).Success?
    ensures ReadBody(m, util, prefix + (ChunkedEncode(chunks) + tail)).value.body == Some(Concat(chunks))
  {
    ChunkedAfterText(m, chunks, prefix, tail);
    FramedText(m, util, prefix + (ChunkedEncode(chunks) + tail), Concat(chunks));
  }

  lemma ChunkedAfterText(m: Message, chunks: seq<string>, prefix: string, tail: seq<char>)
    requires forall i :: 0 <= i < |chunks| ==> 0 < |chunks[i]| <= MAX_INT
    requires GetHeader(m, HEADER_CONTENT_LENGTH).Some? && ParseInt(GetHeader(m, HEADER_CONTENT_LENGTH).value, 10) == Some(|prefix|)
    requires IsChunked(m)
    ensures BodyText(m, prefix + (ChunkedEncode(chunks) + tail)) == Success(Some(Concat(chunks)))
  {
    var input := prefix + (ChunkedEncode(chunks) + tail);
    assert Take(input, |prefix|) == prefix;
    assert Drop(input, |prefix|) == ChunkedEncode(chunks) + tail;
    ChunkedRoundTrip(chunks, tail);
  }

  /** HTTP/1.0 with no framing header: the body is the rest of the stream. */
  lemma ReadToEnd(m: Message, util: HttpUtil, input: seq<char>)
    requires GetHeader(m, HEADER_CONTENT_LENGTH).None? && !IsChunked(m)
    requires m.httpVersion == HTTP_1_0 && MediaKey(m) != MULTIPART_FORM_DATA
    ensures ReadBody(m, util, input).Success?
    ensures ReadBody(m, util, input).value.body == Some(input)
  {
    FramedText(m, util, input, input);
  }
}

=== FILE: reader.dfy ===
/** The character stream a message is parsed from, with the two reads the
    parser performs: `BufferedReader.readLine()` and `StreamUtil.copy` of a
    bounded number of chars. The stream is the sequence of chars not yet read. */
module Reader {
  import opened Wrappers
  import opened Text

  predicate NoLineBreak(s: string) {
    '\r' !in s && '\n' !in s
  }

  /** Splits `s` at the first line terminator: "\n", "\r" or "\r\n". The line
      excludes the terminator; the rest starts after it. */
  function SplitLine(s: seq<char>): (r: (string, seq<char>))
    ensures |r.0| <= |s| && r.0 == s[..|r.0|] && NoLineBreak(r.0)
    ensures |r.0| == |s| ==> r.1 == []
    ensures |r.0| < |s| ==>
      (s[|r.0|] == '\n' && r.1 == s[|r.0| + 1..]) ||
      (s[|r.0|] == '\r' && r.1 == (if |r.0| + 1 < |s| && s[|r.0| + 1] == '\n' then s[|r.0| + 2..] else s[|r.0| + 1..]))
  {
    if |s| == 0 then ([], [])
    else if s[0] == '\n' then ([], s[1..])
    else if s[0] == '\r' then ([], if |s| > 1 && s[1] == '\n' then s[2..] else s[1..])
    else
      var (line, rest) := SplitLine(s[1..]);
      assert [s[0]] + line == s[..|line| + 1];
      ([s[0]] + line, rest)
  }

  /** `readLine()`: `None` (Java null) at end of stream, otherwise the next
      line and the stream after its terminator. */
  function ReadLine(s: seq<char>): (r: Option<(string, seq<char>)>)
    ensures r.None? <==> |s| == 0
    ensures r.Some? ==> |r.value.1| < |s| && NoLineBreak(r.value.0)
  {
    if |s| == 0 then None else Some(SplitLine(s))
  }

  /** A line written with a CRLF terminator reads back as itself. */
  lemma ReadLineCRLF(line: string, rest: seq<char>)
    requires NoLineBreak(line)
    ensures ReadLine(line + CRLF + rest) == Some((line, rest))
  {
    var s := line + CRLF + rest;
    var r := SplitLine(s);
    assert s[|line|] == '\r' && s[|line| + 1] == '\n';
    assert s[..|line|] == line;
    assert |r.0| == |line|;
    assert s[|line| + 2..] == rest;
  }

  /** `StreamUtil.copy(reader, writer, n)`: at most `n` chars, fewer when the
      stream ends first. */
  function Take(s: seq<char>, n: nat): (r: string)
    ensures |r| == if n <= |s| then n else |s|
    ensures r == s[..|r|]
  {
    if n <= |s| then s[..n] else s
  }

  /** The stream after `Take(s, n)`. */
  function Drop(s: seq<char>, n: nat): (r: seq<char>)
    ensures Take(s, n) + r == s
  {
    if n <= |s| then s[n..] else []
  }
}

=== FILE: seqs.dfy ===
/** Facts about sequence concatenation and slicing that the text and store
    proofs share. */
module Seqs {
  /** Concatenation is associative. */
  lemma Assoc<T>(a: seq<T>, b: seq<T>, c: seq<T>)
    ensures a + b + c == a + (b + c)
  {
  }

  /** The empty sequence is a right unit. */
  lemma RightUnit<T>(a: seq<T>)
    ensures a + [] == a
  {
  }

  /** The two sides of a concatenation are its slices. */
  lemma ConcatSides<T>(a: seq<T>, b: seq<T>)
    ensures (a + b)[..|a|] == a && (a + b)[|a|..] == b
  {
  }

  /** A non-empty sequence is its front followed by its last element. */
  lemma LastSplit<T>(e: T, es: seq<T>)
    requires |es| > 0
    ensures es == es[..|es| - 1] + [es[|es| - 1]]
    ensures [e] + es == ([e] + es[..|es| - 1]) + [es[|es| - 1]]
  {
  }

  /** How the slices of a sequence and of its tail line up. */
  lemma SliceShift<T>(s: seq<T>, i: nat)
    requires 0 < i < |s|
    ensures s[1..][..i - 1] == s[1..i] && s[1..][i..] == s[i + 1..] && s[1..][i - 1] == s[i]
    ensures |s[..i]| > 0 && s[..i][0] == s[0] && s[..i][1..] == s[1..i]
  {
  }
}

=== FILE: text.dfy ===
/** The `java.lang.String` and jodd `StringUtil` operations the message code relies on:
    trimming, lower-casing, blank tests and character search. */
module Text {
  import opened Wrappers

  /** The line terminator the message writes. */
  const CRLF: string := "\r\n"

  /** `String.trim()` and jodd's white-space test both treat every char at or
      below U+0020 as white space. */
  predicate IsWhite(c: char) {
    c <= ' '
  }

  /** jodd `StringUtil.isBlank` on a non-null string: only white space. */
  predicate IsBlank(s: string) {
    forall i :: 0 <= i < |s| ==> IsWhite(s[i])
  }

  /** Only white space in `s[from..to]`. */
  predicate BlankRange(s: string, from: int, to: int)
    requires 0 <= from <= to <= |s|
  {
    forall k :: from <= k < to ==> IsWhite(s[k])
  }

  /** The first loop of `String.trim()`: the index of the first char at or
      after `i` that is not white space, or `|s|`. */
  function SkipStart(s: string, i: nat): (st: nat)
    requires i <= |s|
    ensures i <= st <= |s| && BlankRange(s, i, st)
    ensures st == |s| || !IsWhite(s[st])
    decreases |s| - i
  {
    if i < |s| && IsWhite(s[i]) then SkipStart(s, i + 1) else i
  }

  /** The second loop of `String.trim()`: the end `len` moves back over white
      space, but not below `st`. */
  function SkipEnd(s: string, st: nat, len: nat): (e: nat)
    requires st <= len <= |s|
    ensures st <= e <= len && BlankRange(s, e, len)
    ensures e == st || !IsWhite(s[e - 1])
    decreases len
  {
    if st < len && IsWhite(s[len - 1]) then SkipEnd(s, st, len - 1) else len
  }

  /** `r` is the slice of `s` at `i`, with only white space on either side. */
  predicate TrimSplit(s: string, r: string, i: int) {
    && 0 <= i <= |s| - |r| && r == s[i..i + |r|]
    && IsBlank(s[..i]) && IsBlank(s[i + |r|..])
  }

  /** `String.trim()`: the longest slice of `s` that neither starts nor ends in
      white space, obtained by dropping only white space on either side. */
  function Trim(s: string): (r: string)
    ensures exists i :: TrimSplit(s, r, i)
    ensures r == [] || (!IsWhite(r[0]) && !IsWhite(r[|r| - 1]))
  {
    var st := SkipStart(s, 0);
    var e := SkipEnd(s, st, |s|);
    TrimParts(s, st, e);
    s[st..e]
  }

  /** The slice between the two loops' indexes has only white space around it. */
  lemma TrimParts(s: string, st: nat, e: nat)
    requires st <= e <= |s| && BlankRange(s, 0, st) && BlankRange(s, e, |s|)
    ensures TrimSplit(s, s[st..e], st)
  {
    assert forall k :: 0 <= k < st ==> s[..st][k] == s[k];
    assert forall k :: 0 <= k < |s| - e ==> s[e..][k] == s[e + k];
  }

  lemma TrimOfTrimmed(s: string)
    requires s == [] || (!IsWhite(s[0]) && !IsWhite(s[|s| - 1]))
    ensures Trim(s) == s
  {
  }

  lemma TrimIdempotent(s: string)
    ensures Trim(Trim(s)) == Trim(s)
  {
    TrimOfTrimmed(Trim(s));
  }

  predicate IsUpper(c: char) {
    'A' <= c <= 'Z'
  }

  /** Lower-casing of one char, on ASCII letters. */
  function LowerChar(c: char): (r: char)
    ensures !IsUpper(r)
    ensures IsWhite(r) <==> IsWhite(c)
  {
    if IsUpper(c) then (c as int + 32) as char else c
  }

  /** `String.toLowerCase()`, on ASCII letters. */
  function ToLower(s: string): (r: string)
    ensures |r| == |s|
    ensures forall i :: 0 <= i < |s| ==> r[i] == LowerChar(s[i])
  {
    seq(|s|, i requires 0 <= i < |s| => LowerChar(s[i]))
  }

  lemma ToLowerIdempotent(s: string)
    ensures ToLower(ToLower(s)) == ToLower(s)
  {
  }

  /** A string with no upper-case letter is its own lower-case form. */
  lemma ToLowerOfLower(s: string)
    requires forall i :: 0 <= i < |s| ==> !IsUpper(s[i])
    ensures ToLower(s) == s
  {
  }

  /** `String.equalsIgnoreCase`, on ASCII letters. */
  predicate EqualsIgnoreCase(a: string, b: string) {
    ToLower(a) == ToLower(b)
  }

  /** `String.indexOf(char)`, with `None` for -1. */
  function IndexOf(s: string, c: char): (r: Option<nat>)
    ensures r.None? <==> c !in s
    ensures r.Some? ==> r.value < |s| && s[r.value] == c && c !in s[..r.value]
  {
    if |s| == 0 then None
    else if s[0] == c then Some(0)
    else match IndexOf(s[1..], c)
      case None => None
      case Some(i) => assert s[..i + 1] == [s[0]] + s[1..][..i]; Some(i + 1)
  }
}

=== FILE: wrappers.dfy ===
/** Failure-compatible wrappers: `Option` stands for a Java reference that may be
    null, `Result` for a computation that may throw. */
module Wrappers {

  datatype Option<+T> = None | Some(value: T) {

    /** The value, or `default` when absent (Java's `x == null ? d : x`). */
    function GetOr(default: T): T {
      match this
      case Some(v) => v
      case None => default
    }
  }

  datatype Result<+T, +E> = Success(value: T) | Failure(error: E) {

    predicate IsFailure() {
      Failure?
    }

    function PropagateFailure<U>(): Result<U, E>
      requires Failure?
    {
      Failure(error)
    }

    function Extract(): T
      requires Success?
    {
      value
    }
  }
}
